=== FILE: README.md ===
# Page-table walk visualiser, modelled in Dafny

The system draws how a Linux process's virtual pages translate to physical
frames. It has two halves that talk through `/proc/page_table_addresses`:

- **The kernel module** (`page_table_module.c`) keeps one pending request
  slot `{pid, vaddr}`. A write of exactly `sizeof(struct pt_module_write)`
  bytes replaces the slot. A read answers the pending request by walking
  the five-level page table of the process (pgd → p4d → pud → pmd → pte).
  It records the table base and the entry pointer of every level it
  reaches, leaves deeper levels at 0, and reports `pte_val` of the leaf
  entry as the physical address.
- **The user-space driver** (`pm_parser.cpp`) reads `/proc/<pid>/maps`
  and parses each line into a range and a label. For every 4 KiB page of
  the range it writes a request and reads the answer. It folds every
  resolved answer into `pt_layers`: five maps `base → entry → target`,
  where runs of levels that share one entry pointer collapse into a
  single edge. It records the frame's region label in `pages`. Finally it
  writes a Graphviz description with one cluster per level and one edge
  per directory entry.

The Dafny modules follow that structure:

| file | module | contents |
|---|---|---|
| `records.dfy` | `Records` | the two proc-file records, 64-bit and 32-bit integers, record sizes |
| `walk.dfy` | `Walk` | the five-level walk, with the kernel's page-table accessors as an oracle |
| `channel.dfy` | `Channel` | the pending slot, `procfile_write` and `procfile_read` |
| `fold.dfy` | `Fold` | the fold into `pt_layers`: as written, and corrected |
| `regions.dfy` | `Regions` | parsing a maps line, and the page sweep |
| `hex.dfy` | `Hex` | printing with `std::hex`, `std::setw(16)` and `std::setfill('0')`, and `stoull(…, 16)` parsing |
| `ordered.dfy` | `Ordered` | key order of `std::map` iteration |
| `dot.dfy` | `Dot` | node records and edge lines of the graph description |
| `driver.dfy` | `Driver` | the sweep: slot protocol, fold and frame labels |
| `wrappers.dfy` | `Wrappers` | `Option` and `Result` |

The module has the following inputs, which the model takes as parameters:
- the kernel's page-table accessors (`pgd_offset`, `*_none`, `*_bad`, `pte_val`, …);
- the pid table (`find_get_pid`, `pid_task`, `task->mm`);
- whether each `copy_from_user` or `copy_to_user` succeeds.

Record sizes are those of the x86-64 layout: 16 bytes written and 104
bytes read.

### Behaviour of the code worth knowing

- **Frame labels are last-writer-wins.** `pages[phys] = mem_label`
  overwrites the label on every visit.
- **Unresolved walks are never folded.** A walk with `phys_addr == 0` is
  skipped (pm_parser.cpp:55), so such a page contributes nothing to the graph.
- **A read does not consume the slot.** The slot only changes on a write,
  so repeated reads answer the same request again.
- **A failed write can corrupt the slot.** When the length is right but
  `copy_from_user` faults part-way, the slot may already hold partial
  bytes, and the model lets it hold anything (`Faulted(leftover)`). A
  write of the wrong length leaves the slot untouched.

## Model

| member | source | states |
|---|---|---|
| Walk.WalkTablesLevels | ex2/page_table_module/page_table_module.c:50-93 | The nested descent records level k as (table base, entry pointer) exactly when every shallower level passed its none/bad check, and 0 otherwise. The physical address is the raw leaf value when all five checks pass (the leaf is checked only with `pte_none`), else 0. |
| Walk.WalkByLevel | ex2/page_table_module/page_table_module.c:61-93 | A loop over the five levels that stops at the first failing check computes the same record as the nested descent. |
| Walk.WalkStopsAtFirstFailure | ex2/page_table_module/page_table_module.c:63-81 | When level k is the first to fail its check, level k is still recorded, every deeper level is 0, and there is no physical address. |
| Walk.PhysicalAddressNeedsFullWalk | ex2/page_table_module/page_table_module.c:75-77 | A non-zero physical address implies all five checks passed, and it equals `pte_val` of the leaf entry. |
| Walk.ZeroPointerPropagates | ex2/page_table_module/page_table_module.c:89-93 | If no level the walk reaches has a NULL entry pointer, then a 0 entry pointer at level i forces 0 at every deeper level. |
| Channel.LookupMm | ex2/page_table_module/page_table_module.c:32-48 | A memory descriptor is found exactly when the pid exists, has a `task_struct`, and that `task_struct` has an `mm`; the descriptor found is that `task->mm`. |
| Channel.Write | ex2/page_table_module/page_table_module.c:106-118 | A write returns 16 exactly when the length is 16 and the copy succeeds, and the slot then holds the written request. Otherwise it returns -EFAULT, and a wrong length leaves the slot unchanged. |
| Channel.Read | ex2/page_table_module/page_table_module.c:23-103 | A read never changes the slot and returns 0 or 104. It returns 104 exactly when the pid resolves to an `mm` and `copy_to_user` succeeds. The record echoes the pending pid and vaddr and carries that address's walk. |
| Fold.Put | ex2/src/pm_parser.cpp:64 | `layer[base][ptr] = target` sets that one entry. It creates the base's map if absent and keeps every other base and every other entry. |
| Fold.ScanEnd | ex2/src/pm_parser.cpp:58-63 | The scan stops at the first level whose entry pointer differs from the run's first one, or at the limit. Every level it passes shares that pointer. |
| Fold.FoldEffect | ex2/src/pm_parser.cpp:56-69 | The corrected fold writes exactly one entry per run of equal entry pointers, pointing at the base of the level where the run ends, plus the leaf edge to the physical address. Every level that does not start a run is unchanged. |
| Fold.FoldIdempotent | ex2/src/pm_parser.cpp:56-69 | Folding the same walk twice gives the same `pt_layers` as folding it once. |
| Fold.LaterFoldWins | ex2/src/pm_parser.cpp:64 | After any earlier fold, a later walk's run-start entry holds the later walk's target. |
| Fold.SharedChainTwoLeaves | ex2/src/pm_parser.cpp:55-69 | Two walks with the same pgd…pmd entries and the same leaf table but different pte entries share the directory chain. The second fold leaves levels 0-3 unchanged, and the leaf table holds both frames. |
| Fold.AsWrittenFailsIff | ex2/src/pm_parser.cpp:56-67 | The fold as written reads past `unfolding[4]` exactly when the pmd and pte entry pointers are equal. Otherwise it agrees with the corrected fold. |
| Fold.LeafFoldedCounterexample | ex2/src/pm_parser.cpp:59-64 | A concrete walk with equal pmd and pte entry pointers on which the fold as written overruns. On the same walk the corrected fold still writes the leaf edge to the frame. |
| Fold.ScanRun | ex2/src/pm_parser.cpp:58-63 | The inner loop computes the scan's end level. |
| Fold.FoldLoop | ex2/src/pm_parser.cpp:56-69 | The nested loops as written compute the recursive as-written fold, including its overrun. |
| Hex.Hex16 | ex2/src/pm_parser.cpp:95 | `setw(16) << setfill('0') << hex` yields 16 lower-case hex digits whose value is the printed number. |
| Hex.HexRoundTrip | ex2/src/pm_parser.cpp:95 | Reading a zero-padded hex rendering back gives the number that was printed. |
| Hex.ParseHexPrefix | ex2/src/pm_parser.cpp:37 | On a string with no leading white space, sign or `0x`, as every field of a maps line is, `stoull(s, 0, 16)` succeeds exactly when `s` starts with at least one hex digit and the value fits in 64 bits. The result is the value of the maximal run of leading digits. |
| Ordered.SortedKeys | ex2/src/pm_parser.cpp:94 | `std::map` iteration visits the keys in strictly increasing order, each exactly once. |
| Regions.Find | ex2/src/pm_parser.cpp:38-42 | `find(c)` yields the first position holding `c`, or `npos` exactly when `c` does not occur. |
| Regions.ParseFormattedLine | ex2/src/pm_parser.cpp:37-44 | Parsing a maps line printed from a range and a label gives back both addresses and the label. This holds for an empty label, a path, or a bracketed tag without '/'. |
| Regions.PageSweep | ex2/src/pm_parser.cpp:46 | The sweep yields begin, begin+0x1000, … all below end, enough of them to cover the range. When it yields nothing, the range is non-empty and reaches into the top page. |
| Regions.PageSweepNoneIff | ex2/src/pm_parser.cpp:46 | The sweep yields nothing exactly when the range is non-empty and the last address the loop visits lies in the top page, so that `addr += 0x1000` wraps past it and the loop never ends. |
| Regions.AlignedSweepTerminates | ex2/src/pm_parser.cpp:46 | A page-aligned end, as every maps line has, never makes the sweep wrap. |
| Regions.PageSweepVisits | ex2/src/pm_parser.cpp:46 | An address is visited exactly when it lies in [begin, end) and is a whole number of pages above begin. |
| Dot.ShownEntries | ex2/src/pm_parser.cpp:99-102 | A directory record lists exactly the entries whose key differs from the node's own base, in increasing order. |
| Dot.DirectoryNodeOmitsSelf | ex2/src/pm_parser.cpp:94-107 | A directory node is its header, then one port per entry key other than its own base in ascending order, then the closing line. |
| Dot.LeafNodeListsEveryEntry | ex2/src/pm_parser.cpp:119-131 | A pte record lists every entry of its table, its own base included, in ascending key order. Each entry comes with the frame it maps to and, when every frame is labelled, with `pages[frame]`. |
| Dot.EdgesMatchDirectoryEntries | ex2/src/pm_parser.cpp:136-147 | The edge section draws a link exactly when it is an entry of levels 0-3, and draws none twice. So there are as many edge lines as directory entries, and the pte level draws none. |
| Dot.EdgeLineColumns | ex2/src/pm_parser.cpp:139-144 | Every edge line is 84 characters long. Base, entry and target sit in fixed 16-character columns that read back as those addresses. |
| Driver.Ingest | ex2/src/pm_parser.cpp:55-72 | An unresolved walk leaves the graph unchanged. A resolved one folds into `pt_layers` exactly as `Fold.FoldEffect` describes: its run-start entries and the leaf edge to the frame are written, and every other entry is kept. It also labels its frame with the region's label and keeps every other label. |
| Driver.IngestIdempotent | ex2/src/pm_parser.cpp:55-72 | Ingesting the same walk twice is the same as ingesting it once. |
| Driver.LabelOfLastWalk | ex2/src/pm_parser.cpp:71 | After a sequence of walks, a frame carries the label of the last walk that resolved to it. |
| Driver.UnobservedFrameKeepsLabel | ex2/src/pm_parser.cpp:71 | A frame that no walk of the sequence resolved to keeps its label, or stays unlabelled. |
| Driver.IngestKeepsFramesLabelled | ex2/src/pm_parser.cpp:66-71 | Ingesting a walk preserves the invariant that every frame the leaf layer points at has a label. So the `pages[…]` lookup of the pte records never falls back to an inserted empty label. |
| Driver.LeafRecordsShowLabels | ex2/src/pm_parser.cpp:119-131 | In a graph whose frames are all labelled, every pte record shows each entry with its frame's own label, never an empty fallback. |
| Driver.SweepKeepsFramesLabelled | ex2/src/pm_parser.cpp:36-74 | A whole sweep preserves that invariant. |
| Driver.VisitPage | ex2/src/pm_parser.cpp:47-72 | One page leaves its own request in the slot and ingests the kernel's answer to it: the walk of that address, or the zeroed record when the pid has no `mm`. So it contributes nothing when the pid has no `mm` or the walk is unresolved. |
| Driver.VisitPagesIsIngestAll | ex2/src/pm_parser.cpp:46-73 | Visiting a run of pages builds the same graph as ingesting their answers in order. So last-writer-wins (`Driver.LabelOfLastWalk`) holds of the sweep the driver runs. |
| Driver.MissingProcessSweep | ex2/src/pm_parser.cpp:36-74 | A pid without a task or memory descriptor contributes nothing to the graph over a whole sweep. |
| Driver.ResolvedPageAddsLeafEdge | ex2/src/pm_parser.cpp:52-66 | Through the write/read protocol, a resolved page adds the leaf edge of its own walk to the graph, whatever the graph held before. |

## Left out

- The `/proc` file's registration, module init and exit, and the `pr_info`
  logging: these are I/O with no effect on the results.
- The real page-table layout and the kernel accessor macros: they are
  architecture code. The model takes them as an oracle (`Walk.PageTables`),
  so every property holds for any page-table contents.
- Concurrency on the single slot: two processes writing and reading at once
  can interleave. The model assumes each write is followed by its own read.
- `buffer_length` and `*offset` in the read handler, and the no-op
  `off += …` in the write handler: the code ignores them, and so does the
  model.
- Opening `/proc/<pid>/maps`, `argv` and the `std::stoi` of the pid: the
  model takes the lines and the pid as parameters.
- Hex.ParseHexPrefix: `std::stoull` also skips leading white space and accepts a
  sign or a `0x` prefix. The model treats only leading hex digits, which
  is all a maps line holds.
- Driver.Sweep: a line whose numbers `std::stoull` cannot parse is a failure
  (`BadLine`), where the program would terminate with an exception.
- Driver.Ingest: it folds with the corrected fold (`Fold.Fold`). It differs from
  pm_parser.cpp:59-67 only on a walk with equal pmd and pte entry pointers,
  where the code overruns the array and writes no leaf edge (see "## Findings"
  and `Fold.AsWrittenFailsIff`).
- Driver.ResolvedPageAddsLeafEdge: stated of the corrected fold through
  `Driver.Ingest`; on a walk with equal pmd and pte entry pointers the code as
  written adds no leaf edge (see "## Findings").
- Fold.LaterFoldWins: stated of the corrected fold; when the later walk has equal
  pmd and pte entry pointers, pm_parser.cpp:64 stores `unfolding[5].base`
  instead (see "## Findings" and `Fold.AsWrittenFailsIff`).
- Fold.SharedChainTwoLeaves: stated of the corrected fold; a walk with equal pmd
  and pte entry pointers gets no leaf edge in pm_parser.cpp:59-67, so the leaf
  table then does not hold both frames (see "## Findings").
- Regions.PageSweep: when the last address the loop visits lies in the top
  page of the address space, the 64-bit `addr += 0x1000` wraps and the loop
  does not end. The model reports that as `None` instead of modelling a
  non-terminating loop; `Regions.PageSweepNoneIff` states exactly when, and
  `Regions.AlignedSweepTerminates` shows page-aligned ranges never wrap.
- The driver's own `write` and `read` calls: the model assumes they
  succeed, because the buffers are the driver's locals and the lengths
  are the record sizes.
- The preamble and cluster boilerplate of the graph description
  (pm_parser.cpp:76-92, 110-117, 134, 149), and the `dot` invocation: these are fixed
  text and an external tool. `Dot.Render` composes the node and edge
  sections without a contract of its own.

## Findings

| source | as written | input that shows it | evidently intended | confidence | as-written member | corrected member |
|---|---|---|---|---|---|---|
| ex2/src/pm_parser.cpp:56-67 | The run scan goes up to `PAGE_TABLE_LEVELS`. When the pmd and pte entry pointers are equal, it ends at `i == 5`, and line 64 reads `unfolding[5]`, one past the end of the array. With the x86-64 layout, `unfolding[5].base` falls on `phys_addr` (byte offset 96), so in practice the pmd entry is made to point at the frame. The outer loop then exits without writing the leaf edge. | A resolved walk whose unfolding is (0x10,0x18), (0x20,0x28), (0x30,0x38), (0x1000,0x2000), (0x1000,0x2000) with phys_addr 0x5000. | The scan stops at the leaf level, so the run ending at the pte level points at the pte table and the leaf edge to the frame is always written. | not executed | Fold.FoldAsWritten, Fold.LeafFoldedCounterexample | Fold.Fold, Fold.FoldEffect |

=== FILE: channel.dfy ===
/**
 * The proc-file request/response protocol of the kernel module: one static
 * pending request (`pt_write`), a write handler that replaces it, and a
 * read handler that answers it with a five-level walk.
 */
module Channel {
  import opened Wrappers
  import opened Records
  import opened Walk

  /** A task; `mm` is `None` for a kernel thread or an exited task (`task->mm == NULL`). */
  datatype Task = Task(mm: Option<Mm>)

  /**
   * The process table as `find_get_pid` and `pid_task` see it: a pid that is
   * not a key has no `struct pid`; one mapped to `None` has no task.
   */
  datatype Kernel = Kernel(pids: map<i32, Option<Task>>)

  /** The static `pt_write`, zero-initialised at module load. */
  datatype Slot = Slot(pending: WriteRequest)

  const INITIAL_SLOT: Slot := Slot(WriteRequest(0, 0))

  /**
   * What `copy_from_user` did: copied everything, or faulted part-way and
   * left the slot holding `leftover`, whatever bytes it had reached.
   */
  datatype CopyIn = Copied | Faulted(leftover: WriteRequest)

  /** The memory descriptor of a pid, or `None` where the read handler gives up. */
  function LookupMm(k: Kernel, pid: i32): (r: Option<Mm>)
    ensures r.Some? <==> pid in k.pids && k.pids[pid].Some? && k.pids[pid].value.mm.Some?
    ensures r.Some? ==> r == k.pids[pid].value.mm
  {
    if pid !in k.pids then None                      // find_get_pid returned NULL
    else match k.pids[pid]
      case None => None                               // pid_task returned NULL
      case Some(task) => task.mm                      // task->mm may be NULL
  }

  datatype WriteReply = WriteReply(slot: Slot, ret: int)

  /**
   * `procfile_write` of `len` bytes holding `data`. A wrong length fails
   * before `copy_from_user` is reached, so the slot is untouched; a correct
   * length replaces the slot.
   */
  function Write(slot: Slot, len: u64, data: WriteRequest, copy: CopyIn): (r: WriteReply)
    ensures r.ret == WRITE_SIZE || r.ret == -EFAULT
    ensures r.ret == WRITE_SIZE <==> len == WRITE_SIZE && copy.Copied?
    ensures len != WRITE_SIZE ==> r.slot == slot
    ensures r.ret == WRITE_SIZE ==> r.slot.pending == data
  {
    if len != WRITE_SIZE then WriteReply(slot, -EFAULT)
    else match copy
      case Faulted(leftover) => WriteReply(Slot(leftover), -EFAULT)
      case Copied => WriteReply(Slot(data), WRITE_SIZE)
  }

  /** What `copy_to_user` delivered: `None` when it faulted (the bytes the caller sees are then unspecified). */
  datatype ReadReply = ReadReply(slot: Slot, ret: int, data: Option<ReadRecord>)

  /**
   * `procfile_read`: answers the pending request. A missing pid, task or
   * `mm` returns 0 bytes and produces no record; otherwise the walk runs
   * and the full record is copied out, or 0 is returned if the copy faults.
   */
  function Read(slot: Slot, k: Kernel, copyOk: bool): (r: ReadReply)
    ensures r.slot == slot
    ensures r.ret == 0 || r.ret == READ_SIZE
    ensures r.ret == READ_SIZE <==> r.data.Some?
    ensures r.data.Some? <==> copyOk && LookupMm(k, slot.pending.pid).Some?
    ensures r.data.Some? ==>
      && r.data.value.pid == slot.pending.pid
      && r.data.value.vaddr == slot.pending.vaddr
      && var w := WalkTables(LookupMm(k, slot.pending.pid).value, slot.pending.vaddr);
         r.data.value.unfolding == w.unfolding && r.data.value.physAddr == w.physAddr
  {
    var request := slot.pending;
    match LookupMm(k, request.pid)
    case None => ReadReply(slot, 0, None)
    case Some(mm) =>
      var w := WalkTables(mm, request.vaddr);
      var record := ReadRecord(request.pid, request.vaddr, w.unfolding, w.physAddr);
      if copyOk then ReadReply(slot, READ_SIZE, Some(record)) else ReadReply(slot, 0, None)
  }
}

=== FILE: dot.dfy ===
/**
 * The graph description the driver writes to `tmp.dot` (pm_parser.cpp:87-147): one
 * cluster per level whose nodes are record-shaped tables, and one edge line
 * per entry of the four directory levels. Every address is printed by
 * `Hex16`: 16 lower-case hex digits, zero-padded.
 */
module Dot {
  import opened Records
  import opened Hex
  import opened Ordered
  import opened Fold

  function Concat(parts: seq<string>): string {
    if parts == [] then "" else parts[0] + Concat(parts[1..])
  }

  // Node records.

  /** The start of a node record: its name, its shape, and its own port labelled with its base. */
  function NodeHeader(base: u64): string {
    "\"" + Hex16(base) + "\" [\n" + "shape = \"record\"\n" + "label = \"<" + Hex16(base) + ">" + Hex16(base)
  }

  const NODE_END: string := "\"];\n"

  /** One port of a directory record: `|<entry> entry`. */
  function PortText(entry: u64): string {
    "|<" + Hex16(entry) + "> " + Hex16(entry) + "\n"
  }

  function PortsText(entries: seq<u64>): string {
    if entries == [] then "" else PortText(entries[0]) + PortsText(entries[1..])
  }

  /**
   * The entries a directory record lists, in visiting order: the loop of
   * pm_parser.cpp:99-105 skips the entry whose key equals the node's own base, whose
   * port the header already names.
   */
  function ShownEntries(base: u64, keys: seq<u64>): (r: seq<u64>)
    ensures forall x :: x in r <==> x in keys && x != base
    ensures Increasing(keys) ==> Increasing(r)
  {
    if keys == [] then []
    else if keys[0] == base then ShownEntries(base, keys[1..])
    else
      var rest := ShownEntries(base, keys[1..]);
      PrependKeepsIncreasing(keys, rest);
      [keys[0]] + rest
  }

  lemma PrependKeepsIncreasing(keys: seq<u64>, rest: seq<u64>)
    requires keys != []
    requires forall x :: x in rest ==> x in keys[1..]
    ensures Increasing(keys) && (Increasing(keys[1..]) ==> Increasing(rest)) ==> Increasing([keys[0]] + rest)
  {
    if Increasing(keys) && (Increasing(keys[1..]) ==> Increasing(rest)) {
      assert Increasing(keys[1..]);
      forall x | x in rest
        ensures keys[0] < x
      {
        var i :| 0 <= i < |keys[1..]| && keys[1..][i] == x;
        assert keys[i + 1] == x;
      }
      var s := [keys[0]] + rest;
      forall i, j | 0 <= i < j < |s|
        ensures s[i] < s[j]
      {
        assert s[j] == rest[j - 1] && s[j] in rest;
        if i > 0 {
          assert s[i] == rest[i - 1];
        }
      }
    }
  }

  /** A node of clusters 0-3 (pm_parser.cpp:95-107). */
  function DirectoryNode(base: u64, entries: map<u64, u64>): string {
    NodeHeader(base) + PortsText(ShownEntries(base, SortedKeys(entries.Keys))) + NODE_END
  }

  /**
   * A directory record lists, in ascending order, exactly the entries
   * whose key differs from the node's own base.
   */
  lemma {:induction false} DirectoryNodeOmitsSelf(base: u64, entries: map<u64, u64>)
    ensures DirectoryNode(base, entries) == NodeHeader(base) + PortsText(SortedKeys(entries.Keys - {base})) + NODE_END
  {
    var shown := ShownEntries(base, SortedKeys(entries.Keys));
    IncreasingUnique(shown, SortedKeys(entries.Keys - {base}));
  }

  /** `pages[frame]`: the region label of a frame, "" for a frame never labelled. */
  function LabelOf(pages: map<u64, string>, frame: u64): string {
    if frame in pages then pages[frame] else ""
  }

  /** One field of a leaf record: the entry, the frame it maps to and that frame's label. */
  function FrameText(entry: u64, frame: u64, frameLabel: string): string {
    "|{" + Hex16(entry) + "\n" + "|" + Hex16(frame) + "\n" + "|" + frameLabel + "}\n"
  }

  function FramesText(keys: seq<u64>, entries: map<u64, u64>, pages: map<u64, string>): string
    requires forall x :: x in keys ==> x in entries
  {
    if keys == [] then ""
    else FrameText(keys[0], entries[keys[0]], LabelOf(pages, entries[keys[0]])) + FramesText(keys[1..], entries, pages)
  }

  /** A node of the pte cluster (pm_parser.cpp:120-131): every entry is listed, with no skip. */
  function LeafNode(base: u64, entries: map<u64, u64>, pages: map<u64, string>): string {
    NodeHeader(base) + FramesText(SortedKeys(entries.Keys), entries, pages) + NODE_END
  }

  /** The fields of a leaf record when every frame has a label: `pages[frame]`, never a fallback. */
  function LabelledFrames(keys: seq<u64>, entries: map<u64, u64>, pages: map<u64, string>): seq<string>
    requires forall x :: x in keys ==> x in entries && entries[x] in pages
  {
    seq(|keys|, i requires 0 <= i < |keys| => FrameText(keys[i], entries[keys[i]], pages[entries[keys[i]]]))
  }

  lemma {:induction false} FramesTextOfLabelled(keys: seq<u64>, entries: map<u64, u64>, pages: map<u64, string>)
    requires forall x :: x in keys ==> x in entries && entries[x] in pages
    ensures FramesText(keys, entries, pages) == Concat(LabelledFrames(keys, entries, pages))
    decreases |keys|
  {
    if keys != [] {
      assert LabelledFrames(keys, entries, pages)[1..] == LabelledFrames(keys[1..], entries, pages);
      FramesTextOfLabelled(keys[1..], entries, pages);
    }
  }

  /**
   * A pte record lists every entry of its table, its own base included, in
   * ascending key order, each with the frame it maps to and, when every
   * frame is labelled, that frame's label from `pages`.
   */
  lemma {:induction false} LeafNodeListsEveryEntry(base: u64, entries: map<u64, u64>, pages: map<u64, string>)
    requires forall e :: e in entries ==> entries[e] in pages
    ensures var keys := SortedKeys(entries.Keys);
      && Increasing(keys)
      && |keys| == |entries|
      && (forall e :: e in keys <==> e in entries)
      && LeafNode(base, entries, pages) == NodeHeader(base) + Concat(LabelledFrames(keys, entries, pages)) + NODE_END
  {
    FramesTextOfLabelled(SortedKeys(entries.Keys), entries, pages);
  }

  function DirectoryNodes(layer: Layer, bases: seq<u64>): string
    requires forall b :: b in bases ==> b in layer
  {
    if bases == [] then "" else DirectoryNode(bases[0], layer[bases[0]]) + DirectoryNodes(layer, bases[1..])
  }

  function LeafNodes(layer: Layer, bases: seq<u64>, pages: map<u64, string>): string
    requires forall b :: b in bases ==> b in layer
  {
    if bases == [] then "" else LeafNode(bases[0], layer[bases[0]], pages) + LeafNodes(layer, bases[1..], pages)
  }

  // Edges.

  /** One entry of a directory level: (level, base, entry) → target. */
  datatype Link = Link(level: Level, base: u64, entry: u64, target: u64)

  /** The edge line of pm_parser.cpp:139-144: from the entry's port, east side, to the target's own port, west side. */
  function EdgeLine(l: Link): string {
    "\"" + Hex16(l.base) + "\":\"" + Hex16(l.entry) + "\":e -> \"" + Hex16(l.target) + "\":\"" + Hex16(l.target) + "\":w;\n"
  }

  /** The links of one node, in the order of its entry keys. */
  function NodeLinks(k: Level, base: u64, entries: map<u64, u64>, keys: seq<u64>): (r: seq<Link>)
    requires forall x :: x in keys ==> x in entries
    ensures forall l :: l in r <==> l.level == k && l.base == base && l.entry in keys && l.target == entries[l.entry]
  {
    if keys == [] then []
    else [Link(k, base, keys[0], entries[keys[0]])] + NodeLinks(k, base, entries, keys[1..])
  }

  lemma {:induction false} NodeLinksDistinct(k: Level, base: u64, entries: map<u64, u64>, keys: seq<u64>)
    requires forall x :: x in keys ==> x in entries
    requires NoDuplicates(keys)
    ensures NoDuplicates(NodeLinks(k, base, entries, keys))
  {
    if keys != [] {
      assert keys[0] !in keys[1..];
      assert NoDuplicates(keys[1..]);
      NodeLinksDistinct(k, base, entries, keys[1..]);
      NoDuplicatesAppend([Link(k, base, keys[0], entries[keys[0]])], NodeLinks(k, base, entries, keys[1..]));
    }
  }

  /** The links of one level, node by node in the order of `bases`. */
  function LayerLinks(k: Level, layer: Layer, bases: seq<u64>): (r: seq<Link>)
    requires forall b :: b in bases ==> b in layer
    ensures forall l :: l in r <==> l.level == k && l.base in bases && l.entry in layer[l.base] && l.target == layer[l.base][l.entry]
  {
    if bases == [] then []
    else NodeLinks(k, bases[0], layer[bases[0]], SortedKeys(layer[bases[0]].Keys)) + LayerLinks(k, layer, bases[1..])
  }

  lemma {:induction false} LayerLinksDistinct(k: Level, layer: Layer, bases: seq<u64>)
    requires forall b :: b in bases ==> b in layer
    requires NoDuplicates(bases)
    ensures NoDuplicates(LayerLinks(k, layer, bases))
  {
    if bases != [] {
      var keys := SortedKeys(layer[bases[0]].Keys);
      IncreasingHasNoDuplicates(keys);
      NodeLinksDistinct(k, bases[0], layer[bases[0]], keys);
      assert bases[0] !in bases[1..];
      assert NoDuplicates(bases[1..]);
      LayerLinksDistinct(k, layer, bases[1..]);
      NoDuplicatesAppend(NodeLinks(k, bases[0], layer[bases[0]], keys), LayerLinks(k, layer, bases[1..]));
    }
  }

  function LevelLinks(layers: Layers, k: Level): (r: seq<Link>)
    ensures forall l :: l in r <==> l.level == k && l.base in layers[k] && l.entry in layers[k][l.base] && l.target == layers[k][l.base][l.entry]
    ensures NoDuplicates(r)
  {
    var bases := SortedKeys(layers[k].Keys);
    IncreasingHasNoDuplicates(bases);
    LayerLinksDistinct(k, layers[k], bases);
    LayerLinks(k, layers[k], bases)
  }

  /** Every link the edge section draws, levels 0-3 in order; the pte level has none. */
  function Links(layers: Layers): seq<Link> {
    LevelLinks(layers, 0) + LevelLinks(layers, 1) + LevelLinks(layers, 2) + LevelLinks(layers, 3)
  }

  /** The edge section of pm_parser.cpp:136-147, one line per link. */
  function EdgeLines(layers: Layers): seq<string> {
    var links := Links(layers);
    seq(|links|, i requires 0 <= i < |links| => EdgeLine(links[i]))
  }

  /** The entries of the four directory levels, as links. */
  function DirectoryEntries(layers: Layers): set<Link> {
    set k: Level, b, e | k < LEAF && b in layers[k] && e in layers[k][b] :: Link(k, b, e, layers[k][b][e])
  }

  /**
   * The edge section draws exactly the entries of levels 0-3, each once:
   * a link is drawn if and only if it is such an entry, no link is drawn
   * twice, and so there are as many edge lines as directory entries.
   * The pte level contributes none.
   */
  lemma {:induction false} EdgesMatchDirectoryEntries(layers: Layers)
    ensures forall l :: l in Links(layers) <==> l in DirectoryEntries(layers)
    ensures NoDuplicates(Links(layers))
    ensures |EdgeLines(layers)| == |DirectoryEntries(layers)|
  {
    LinksAreDirectoryEntries(layers);
    LinksDistinct(layers);
    var links := Links(layers);
    DistinctCardinality(links);
    assert Elements(links) == DirectoryEntries(layers);
  }

  lemma LinksAreDirectoryEntries(layers: Layers)
    ensures forall l :: l in Links(layers) <==> l in DirectoryEntries(layers)
  {
    forall l
      ensures l in Links(layers) <==> l in DirectoryEntries(layers)
    {
      InLinks(layers, l);
      InDirectoryEntries(layers, l);
    }
  }

  lemma InLinks(layers: Layers, l: Link)
    ensures l in Links(layers) <==> l.level < LEAF && l in LevelLinks(layers, l.level)
  {
    var a, b, c, d := LevelLinks(layers, 0), LevelLinks(layers, 1), LevelLinks(layers, 2), LevelLinks(layers, 3);
    assert Links(layers) == a + b + c + d;
  }

  lemma InDirectoryEntries(layers: Layers, l: Link)
    ensures l in DirectoryEntries(layers) <==>
      l.level < LEAF && l.base in layers[l.level] && l.entry in layers[l.level][l.base] && l.target == layers[l.level][l.base][l.entry]
  {
    if l.level < LEAF && l.base in layers[l.level] && l.entry in layers[l.level][l.base] && l.target == layers[l.level][l.base][l.entry] {
      assert l == Link(l.level, l.base, l.entry, layers[l.level][l.base][l.entry]);
    }
  }

  lemma LinksDistinct(layers: Layers)
    ensures NoDuplicates(Links(layers))
  {
    var a, b, c, d := LevelLinks(layers, 0), LevelLinks(layers, 1), LevelLinks(layers, 2), LevelLinks(layers, 3);
    NoDuplicatesAppend(a, b);
    NoDuplicatesAppend(a + b, c);
    NoDuplicatesAppend(a + b + c, d);
  }

  /**
   * Every edge line has fixed columns: each address occupies exactly 16
   * characters at the same offset in every line, and reading those columns
   * back as hex gives the link's base, entry and target.
   */
  lemma EdgeLineColumns(l: Link)
    ensures var line := EdgeLine(l);
      && |line| == 84
      && line[1..17] == Hex16(l.base) && HexValue(line[1..17]) == l.base
      && line[20..36] == Hex16(l.entry) && HexValue(line[20..36]) == l.entry
      && line[44..60] == Hex16(l.target) && HexValue(line[44..60]) == l.target
      && line[63..79] == Hex16(l.target)
  {
  }

  /** The body of the graph description: five clusters of nodes, then the edges. */
  function Render(layers: Layers, pages: map<u64, string>): string {
    DirectoryNodes(layers[0], SortedKeys(layers[0].Keys))
    + DirectoryNodes(layers[1], SortedKeys(layers[1].Keys))
    + DirectoryNodes(layers[2], SortedKeys(layers[2].Keys))
    + DirectoryNodes(layers[3], SortedKeys(layers[3].Keys))
    + LeafNodes(layers[LEAF], SortedKeys(layers[LEAF].Keys), pages)
    + Concat(EdgeLines(layers))
  }
}

=== FILE: driver.dfy ===
/**
 * The user-space driver (pm_parser.cpp:36-74): for every region line, for every page
 * of the region, submit the request, read the walk back, and merge a
 * resolved walk into the graph and the frame label map.
 */
module Driver {
  import opened Wrappers
  import opened Records
  import opened Walk
  import opened Channel
  import opened Fold
  import opened Regions
  import opened Ordered
  import opened Dot

  /** `pt_layers` and `pages`: the translation graph and the frame → region label map. */
  datatype Graph = Graph(layers: Layers, pages: map<u64, string>)

  const EMPTY_GRAPH: Graph := Graph(EMPTY_LAYERS, map[])

  /**
   * pm_parser.cpp:55-72: a walk with `phys_addr == 0` is skipped; a resolved one is
   * folded into the layers and labels its frame, replacing any earlier label.
   */
  function Ingest(g: Graph, r: ReadRecord, memLabel: string): (g': Graph)
    ensures r.physAddr == 0 ==> g' == g
    ensures r.physAddr != 0 ==> r.physAddr in g'.pages && g'.pages[r.physAddr] == memLabel
    ensures forall p :: p != r.physAddr ==> (p in g'.pages <==> p in g.pages)
    ensures forall p :: p != r.physAddr && p in g.pages ==> g'.pages[p] == g.pages[p]
    ensures r.physAddr != 0 ==> var u := r.unfolding;
      u[LEAF].base in g'.layers[LEAF] && u[LEAF].ptr in g'.layers[LEAF][u[LEAF].base]
      && g'.layers[LEAF][u[LEAF].base][u[LEAF].ptr] == r.physAddr
    ensures r.physAddr != 0 ==> FoldedFrom(g.layers, r, g'.layers, 0)
  {
    if r.physAddr == 0 then g
    else
      FoldEffect(g.layers, r);
      Graph(Fold.Fold(g.layers, r), g.pages[r.physAddr := memLabel])
  }

  /** Merging the same resolved walk twice leaves the graph as merging it once. */
  lemma {:induction false} IngestIdempotent(g: Graph, r: ReadRecord, memLabel: string)
    ensures Ingest(Ingest(g, r, memLabel), r, memLabel) == Ingest(g, r, memLabel)
  {
    if r.physAddr != 0 {
      FoldIdempotent(g.layers, r);
    }
  }

  /**
   * Every frame the leaf layer maps to has a label, so the lookup
   * `pages[entry.second]` of the pte records (pm_parser.cpp:128) finds one.
   */
  predicate FramesLabelled(g: Graph) {
    forall b, e :: b in g.layers[LEAF] && e in g.layers[LEAF][b] ==> g.layers[LEAF][b][e] in g.pages
  }

  lemma {:induction false} IngestKeepsFramesLabelled(g: Graph, r: ReadRecord, memLabel: string)
    requires FramesLabelled(g)
    ensures FramesLabelled(Ingest(g, r, memLabel))
  {
    if r.physAddr != 0 {
      var g' := Ingest(g, r, memLabel);
      var u := r.unfolding;
      FoldEffect(g.layers, r);
      assert g'.layers[LEAF] == Put(g.layers[LEAF], u[LEAF].base, u[LEAF].ptr, r.physAddr);
      forall b, e | b in g'.layers[LEAF] && e in g'.layers[LEAF][b]
        ensures g'.layers[LEAF][b][e] in g'.pages
      {
        if b == u[LEAF].base && e == u[LEAF].ptr {
        } else if b == u[LEAF].base {
          assert e in EntriesOf(g.layers[LEAF], b);
        } else {
          assert b in g.layers[LEAF];
        }
      }
    }
  }

  /**
   * In a graph whose frames are all labelled, each pte record of the
   * graph description shows every entry with its frame's own label.
   */
  lemma {:induction false} LeafRecordsShowLabels(g: Graph, base: u64)
    requires FramesLabelled(g) && base in g.layers[LEAF]
    ensures var entries := g.layers[LEAF][base];
      var keys := SortedKeys(entries.Keys);
      && (forall e :: e in keys <==> e in entries)
      && LeafNode(base, entries, g.pages) == NodeHeader(base) + Concat(LabelledFrames(keys, entries, g.pages)) + NODE_END
  {
    LeafNodeListsEveryEntry(base, g.layers[LEAF][base], g.pages);
  }

  /** One observed walk and the label of the region it came from. */
  datatype Observation = Observation(record: ReadRecord, memLabel: string)

  function IngestAll(g: Graph, obs: seq<Observation>): Graph
    decreases |obs|
  {
    if obs == [] then g
    else IngestAll(Ingest(g, obs[0].record, obs[0].memLabel), obs[1..])
  }

  /** `i` is the last observation that resolved to `frame`. */
  predicate IsLastFor(obs: seq<Observation>, frame: u64, i: nat) {
    && i < |obs|
    && obs[i].record.physAddr == frame
    && forall j :: i < j < |obs| ==> obs[j].record.physAddr != frame
  }

  /** The label map of a sequence of walks, one walk at a time. */
  lemma IngestAllStep(g: Graph, obs: seq<Observation>)
    requires obs != []
    ensures IngestAll(g, obs) == IngestAll(Ingest(g, obs[0].record, obs[0].memLabel), obs[1..])
  {
  }

  /**
   * The frame label map is last-writer-wins: after a sequence of walks a
   * resolved frame carries the label of the last walk that reached it.
   */
  lemma {:induction false} LabelOfLastWalk(g: Graph, obs: seq<Observation>, frame: u64, i: nat)
    requires frame != 0
    requires IsLastFor(obs, frame, i)
    ensures frame in IngestAll(g, obs).pages && IngestAll(g, obs).pages[frame] == obs[i].memLabel
    decreases |obs|
  {
    var g1 := Ingest(g, obs[0].record, obs[0].memLabel);
    IngestAllStep(g, obs);
    if i > 0 {
      assert IsLastFor(obs[1..], frame, i - 1);
      LabelOfLastWalk(g1, obs[1..], frame, i - 1);
    } else {
      assert frame in g1.pages && g1.pages[frame] == obs[0].memLabel;
      forall j | 0 <= j < |obs[1..]|
        ensures obs[1..][j].record.physAddr != frame
      {
        assert obs[1..][j] == obs[j + 1];
      }
      UnobservedFrameKeepsLabel(g1, obs[1..], frame);
    }
  }

  /** A frame no walk of the sequence reached keeps the label it had, or stays unlabelled. */
  lemma {:induction false} UnobservedFrameKeepsLabel(g: Graph, obs: seq<Observation>, frame: u64)
    requires forall j :: 0 <= j < |obs| ==> obs[j].record.physAddr != frame
    ensures frame in IngestAll(g, obs).pages <==> frame in g.pages
    ensures frame in g.pages ==> IngestAll(g, obs).pages[frame] == g.pages[frame]
    decreases |obs|
  {
    if obs != [] {
      var g1 := Ingest(g, obs[0].record, obs[0].memLabel);
      IngestAllStep(g, obs);
      assert obs[0].record.physAddr != frame;
      forall j | 0 <= j < |obs[1..]|
        ensures obs[1..][j].record.physAddr != frame
      {
        assert obs[1..][j] == obs[j + 1];
      }
      UnobservedFrameKeepsLabel(g1, obs[1..], frame);
    }
  }

  // The sweep, through the proc-file protocol.

  /** The driver's state: the kernel module's pending slot and the graph built so far. */
  datatype State = State(slot: Slot, graph: Graph)

  /**
   * One page (pm_parser.cpp:47-72): write the request `{pid, addr}`, read the answer
   * into a zeroed record, and merge it. The driver's buffers are its own
   * locals, so both copies succeed; a read that returns 0 bytes leaves the
   * record zeroed and it is skipped.
   */
  function VisitPage(s: State, k: Kernel, pid: i32, addr: u64, memLabel: string): (s': State)
    ensures s'.slot.pending == WriteRequest(pid, addr)
    ensures s'.graph == Ingest(s.graph, Answer(k, pid, addr), memLabel)
    ensures LookupMm(k, pid).None? ==> s'.graph == s.graph
    ensures LookupMm(k, pid).Some? && WalkTables(LookupMm(k, pid).value, addr).physAddr == 0 ==> s'.graph == s.graph
  {
    var written := Write(s.slot, WRITE_SIZE, WriteRequest(pid, addr), Copied);
    var reply := Read(written.slot, k, true);
    var record := match reply.data
      case Some(rec) => rec
      case None => EMPTY_RECORD;
    State(reply.slot, Ingest(s.graph, record, memLabel))
  }

  /**
   * The record the driver holds after writing `{pid, addr}` and reading:
   * the kernel's answer, or the zeroed record when there is no `mm`.
   */
  function Answer(k: Kernel, pid: i32, addr: u64): ReadRecord {
    match LookupMm(k, pid)
    case None => EMPTY_RECORD
    case Some(mm) =>
      var w := WalkTables(mm, addr);
      ReadRecord(pid, addr, w.unfolding, w.physAddr)
  }

  /** The walks a run of pages produces, each with the region's label. */
  function Observed(k: Kernel, pid: i32, addrs: seq<u64>, memLabel: string): (obs: seq<Observation>)
    ensures |obs| == |addrs|
    ensures forall i :: 0 <= i < |addrs| ==> obs[i] == Observation(Answer(k, pid, addrs[i]), memLabel)
  {
    seq(|addrs|, i requires 0 <= i < |addrs| => Observation(Answer(k, pid, addrs[i]), memLabel))
  }

  /**
   * Visiting a run of pages builds the graph that ingesting their answers
   * in order builds, so the label lemmas about `IngestAll` hold of the
   * sweep the driver runs.
   */
  lemma {:induction false} VisitPagesIsIngestAll(s: State, k: Kernel, pid: i32, addrs: seq<u64>, memLabel: string)
    ensures VisitPages(s, k, pid, addrs, memLabel).graph == IngestAll(s.graph, Observed(k, pid, addrs, memLabel))
    decreases |addrs|
  {
    var obs := Observed(k, pid, addrs, memLabel);
    if addrs != [] {
      var s1 := VisitPage(s, k, pid, addrs[0], memLabel);
      IngestAllStep(s.graph, obs);
      assert obs[1..] == Observed(k, pid, addrs[1..], memLabel);
      VisitPagesIsIngestAll(s1, k, pid, addrs[1..], memLabel);
    }
  }

  function VisitPages(s: State, k: Kernel, pid: i32, addrs: seq<u64>, memLabel: string): State
    decreases |addrs|
  {
    if addrs == [] then s
    else VisitPages(VisitPage(s, k, pid, addrs[0], memLabel), k, pid, addrs[1..], memLabel)
  }

  /** Why a sweep produces no graph. */
  datatype SweepError =
    | BadLine(line: string)     // `std::stoull` throws and the driver terminates
    | EndlessRange(line: string) // the page loop wraps around and never ends

  /** pm_parser.cpp:36-74: every line of the maps file, every page of its range. */
  function Sweep(s: State, k: Kernel, pid: i32, lines: seq<string>): Result<State, SweepError>
    decreases |lines|
  {
    if lines == [] then Success(s)
    else match ParseLine(lines[0])
      case None => Failure(BadLine(lines[0]))
      case Some(region) =>
        match PageSweep(region.begin, region.end)
        case None => Failure(EndlessRange(lines[0]))
        case Some(addrs) => Sweep(VisitPages(s, k, pid, addrs, region.memLabel), k, pid, lines[1..])
  }

  /** The sweep keeps every drawn frame labelled. */
  lemma {:induction false} VisitPagesKeepsFramesLabelled(s: State, k: Kernel, pid: i32, addrs: seq<u64>, memLabel: string)
    requires FramesLabelled(s.graph)
    ensures FramesLabelled(VisitPages(s, k, pid, addrs, memLabel).graph)
    decreases |addrs|
  {
    if addrs != [] {
      var s1 := VisitPage(s, k, pid, addrs[0], memLabel);
      var written := Write(s.slot, WRITE_SIZE, WriteRequest(pid, addrs[0]), Copied);
      var reply := Read(written.slot, k, true);
      var record := match reply.data case Some(rec) => rec case None => EMPTY_RECORD;
      IngestKeepsFramesLabelled(s.graph, record, memLabel);
      VisitPagesKeepsFramesLabelled(s1, k, pid, addrs[1..], memLabel);
    }
  }

  lemma {:induction false} SweepKeepsFramesLabelled(s: State, k: Kernel, pid: i32, lines: seq<string>)
    requires FramesLabelled(s.graph)
    ensures Sweep(s, k, pid, lines).Success? ==> FramesLabelled(Sweep(s, k, pid, lines).value.graph)
    decreases |lines|
  {
    if lines != [] {
      match ParseLine(lines[0])
      case None =>
      case Some(region) =>
        match PageSweep(region.begin, region.end)
        case None =>
        case Some(addrs) =>
          VisitPagesKeepsFramesLabelled(s, k, pid, addrs, region.memLabel);
          SweepKeepsFramesLabelled(VisitPages(s, k, pid, addrs, region.memLabel), k, pid, lines[1..]);
    }
  }

  /**
   * A pid without a task or a memory context contributes nothing: every
   * page is skipped and the graph stays as it was.
   */
  lemma {:induction false} MissingProcessContributesNothing(s: State, k: Kernel, pid: i32, addrs: seq<u64>, memLabel: string)
    requires LookupMm(k, pid).None?
    ensures VisitPages(s, k, pid, addrs, memLabel).graph == s.graph
    decreases |addrs|
  {
    if addrs != [] {
      MissingProcessContributesNothing(VisitPage(s, k, pid, addrs[0], memLabel), k, pid, addrs[1..], memLabel);
    }
  }

  lemma {:induction false} MissingProcessSweep(s: State, k: Kernel, pid: i32, lines: seq<string>)
    requires LookupMm(k, pid).None?
    ensures Sweep(s, k, pid, lines).Success? ==> Sweep(s, k, pid, lines).value.graph == s.graph
    decreases |lines|
  {
    if lines != [] {
      match ParseLine(lines[0])
      case None =>
      case Some(region) =>
        match PageSweep(region.begin, region.end)
        case None =>
        case Some(addrs) =>
          MissingProcessContributesNothing(s, k, pid, addrs, region.memLabel);
          MissingProcessSweep(VisitPages(s, k, pid, addrs, region.memLabel), k, pid, lines[1..]);
    }
  }

  /** A resolved page adds the leaf edge of its own walk, whatever the graph held before. */
  lemma {:induction false} ResolvedPageAddsLeafEdge(s: State, k: Kernel, pid: i32, addr: u64, memLabel: string, mm: Mm)
    requires LookupMm(k, pid) == Some(mm)
    requires WalkTables(mm, addr).physAddr != 0
    ensures var w := WalkTables(mm, addr);
      var leaf := VisitPage(s, k, pid, addr, memLabel).graph.layers[LEAF];
      var e := w.unfolding[LEAF];
      e.base in leaf && e.ptr in leaf[e.base] && leaf[e.base][e.ptr] == w.physAddr
  {
  }
}

=== FILE: fold.dfy ===
/**
 * The translation-graph fold of the driver: every resolved walk result is
 * merged into `pt_layers`, five maps (one per level) from a table's base to
 * its consulted entries and where each entry leads.
 *
 * Runs of consecutive levels whose entry pointers are equal (a folded
 * level, such as p4d folded onto pgd under 4-level paging) collapse into a
 * single edge from the run's first level to the base of the next run.
 */
module Fold {
  import opened Wrappers
  import opened Records

  /** One level of `pt_layers`: table base → entry pointer → target. */
  type Layer = map<u64, map<u64, u64>>

  type Layers = s: seq<Layer> | |s| == LEVELS witness [map[], map[], map[], map[], map[]]

  const EMPTY_LAYERS: Layers := [map[], map[], map[], map[], map[]]

  /** The entries a layer holds for `base`; `std::map::operator[]` makes an empty map for a new base. */
  function EntriesOf(layer: Layer, base: u64): map<u64, u64> {
    if base in layer then layer[base] else map[]
  }

  /** `layer[base][ptr] = target`: one entry set, everything else kept. */
  function Put(layer: Layer, base: u64, ptr: u64, target: u64): (r: Layer)
    ensures r.Keys == layer.Keys + {base}
    ensures r[base].Keys == EntriesOf(layer, base).Keys + {ptr}
    ensures r[base][ptr] == target
    ensures forall p :: p in EntriesOf(layer, base) && p != ptr ==> r[base][p] == layer[base][p]
    ensures forall b :: b in layer && b != base ==> r[b] == layer[b]
  {
    layer[base := EntriesOf(layer, base)[ptr := target]]
  }

  /** `pt_layers[k][base][ptr] = target`. */
  function Assign(layers: Layers, k: Level, base: u64, ptr: u64, target: u64): Layers {
    layers[k := Put(layers[k], base, ptr, target)]
  }

  /**
   * The inner scan of pm_parser.cpp:59-63: starting at `i`, the first level below
   * `limit` whose entry pointer differs from that of level `start`, or
   * `limit` itself when there is none.
   */
  function ScanEnd(u: Unfolding, start: Level, i: nat, limit: nat): (j: nat)
    requires start <= i <= limit <= LEVELS && start < limit
    requires forall m :: start <= m < i ==> u[m].ptr == u[start].ptr
    ensures start < j <= limit
    ensures forall m :: start <= m < j ==> u[m].ptr == u[start].ptr
    ensures j < limit ==> u[j].ptr != u[start].ptr
    decreases limit - i
  {
    if i == limit || u[i].ptr != u[start].ptr then i else ScanEnd(u, start, i + 1, limit)
  }

  /** The fold as written reads `unfolding[5]`, one past the end of the array. */
  datatype FoldError = UnfoldingOutOfBounds(runStart: Level)

  /**
   * The fold loop of pm_parser.cpp:56-69 as written, from level `i` on: a scan that
   * runs off the end of `unfolding` reports the out-of-bounds read instead
   * of producing layers.
   */
  function FoldFromAsWritten(layers: Layers, r: ReadRecord, i: Level): Result<Layers, FoldError>
    decreases LEVELS - i
  {
    var u := r.unfolding;
    if i + 1 < LEVELS then
      var j := ScanEnd(u, i, i, LEVELS);
      if j == LEVELS then Failure(UnfoldingOutOfBounds(i))
      else FoldFromAsWritten(Assign(layers, i, u[i].base, u[i].ptr, u[j].base), r, j)
    else
      Success(Assign(layers, i, u[i].base, u[i].ptr, r.physAddr))
  }

  function FoldAsWritten(layers: Layers, r: ReadRecord): Result<Layers, FoldError> {
    FoldFromAsWritten(layers, r, 0)
  }

  /**
   * The fold with the scan stopped at the leaf level: a run that reaches
   * the leaf points at the leaf table, and the leaf edge to the physical
   * address is always written.
   */
  function FoldFrom(layers: Layers, r: ReadRecord, i: Level): Layers
    decreases LEVELS - i
  {
    var u := r.unfolding;
    if i + 1 < LEVELS then
      var j := ScanEnd(u, i, i, LEAF);
      FoldFrom(Assign(layers, i, u[i].base, u[i].ptr, u[j].base), r, j)
    else
      Assign(layers, i, u[i].base, u[i].ptr, r.physAddr)
  }

  function Fold(layers: Layers, r: ReadRecord): Layers {
    FoldFrom(layers, r, 0)
  }

  // The effect of a fold, described level by level.

  /** Level k starts a run of equal entry pointers. */
  predicate IsRunStart(u: Unfolding, k: Level) {
    k == 0 || u[k].ptr != u[k - 1].ptr
  }

  /** Level k receives an entry: it starts a run, or it is the leaf. */
  predicate Written(u: Unfolding, k: Level) {
    k == LEAF || IsRunStart(u, k)
  }

  /** Level j is where the run starting at directory level k ends: the next run start, or the leaf. */
  predicate IsNextLevel(u: Unfolding, k: Level, j: Level) {
    && k < j
    && (forall m :: k < m < j ==> u[m].ptr == u[k].ptr)
    && (j == LEAF || u[j].ptr != u[k].ptr)
  }

  /**
   * `after` is `before` with exactly the fold's entries set: each run start
   * at a directory level maps its (base, ptr) to the base of the level its
   * run ends at, the leaf maps its (base, ptr) to the physical address, and
   * every other level is unchanged.
   */
  predicate FoldedFrom(before: Layers, r: ReadRecord, after: Layers, from: Level) {
    var u := r.unfolding;
    && (forall k: Level :: (k < from || !Written(u, k)) ==> after[k] == before[k])
    && after[LEAF] == Put(before[LEAF], u[LEAF].base, u[LEAF].ptr, r.physAddr)
    && (forall k: Level, j: Level :: from <= k < LEAF && IsRunStart(u, k) && IsNextLevel(u, k, j) ==>
          after[k] == Put(before[k], u[k].base, u[k].ptr, u[j].base))
  }

  lemma {:induction false} FoldFromEffect(layers: Layers, r: ReadRecord, i: Level)
    requires Written(r.unfolding, i)
    ensures FoldedFrom(layers, r, FoldFrom(layers, r, i), i)
    decreases LEVELS - i
  {
    var u := r.unfolding;
    if i + 1 < LEVELS {
      var j := ScanEnd(u, i, i, LEAF);
      var next := Assign(layers, i, u[i].base, u[i].ptr, u[j].base);
      FoldFromEffect(next, r, j);
      var after := FoldFrom(layers, r, i);
      assert after == FoldFrom(next, r, j);
      forall k: Level, j': Level | i <= k < LEAF && IsRunStart(u, k) && IsNextLevel(u, k, j')
        ensures after[k] == Put(layers[k], u[k].base, u[k].ptr, u[j'].base)
      {
        if k == i {
          NextLevelUnique(u, k, j, j');
        }
      }
      forall k: Level | k < i || !Written(u, k)
        ensures after[k] == layers[k]
      {
        if i < k < j {
          assert u[k].ptr == u[i].ptr && u[k - 1].ptr == u[i].ptr;
        }
      }
    }
  }

  lemma NextLevelUnique(u: Unfolding, k: Level, j: Level, j': Level)
    requires IsNextLevel(u, k, j) && IsNextLevel(u, k, j')
    ensures j == j'
  {
  }

  /**
   * What one fold does to `pt_layers`: the entries it sets, and nothing
   * else. In particular the leaf edge (base[4], ptr[4]) → phys_addr is
   * always written, however many levels were folded above it.
   */
  lemma {:induction false} FoldEffect(layers: Layers, r: ReadRecord)
    ensures FoldedFrom(layers, r, Fold(layers, r), 0)
  {
    FoldFromEffect(layers, r, 0);
  }

  /** Setting the same entry twice is the same as setting it once. */
  lemma PutTwice(layer: Layer, base: u64, ptr: u64, target: u64)
    ensures Put(Put(layer, base, ptr, target), base, ptr, target) == Put(layer, base, ptr, target)
  {
    var inner := EntriesOf(layer, base)[ptr := target];
    var once := Put(layer, base, ptr, target);
    assert once == layer[base := inner];
    assert EntriesOf(once, base) == inner;
    assert inner[ptr := target] == inner;
  }

  /** Every directory level has a level its run ends at. */
  lemma {:induction false} NextLevelExists(u: Unfolding, k: Level)
    requires k < LEAF
    ensures IsNextLevel(u, k, ScanEnd(u, k, k, LEAF))
  {
  }

  /** Folding the same walk result twice leaves the layers as folding it once. */
  lemma {:induction false} FoldIdempotent(layers: Layers, r: ReadRecord)
    ensures Fold(Fold(layers, r), r) == Fold(layers, r)
  {
    var u := r.unfolding;
    var once := Fold(layers, r);
    var twice := Fold(once, r);
    FoldEffect(layers, r);
    FoldEffect(once, r);
    forall k: Level
      ensures twice[k] == once[k]
    {
      if k == LEAF {
        PutTwice(layers[LEAF], u[LEAF].base, u[LEAF].ptr, r.physAddr);
      } else if IsRunStart(u, k) {
        var j := ScanEnd(u, k, k, LEAF);
        NextLevelExists(u, k);
        PutTwice(layers[k], u[k].base, u[k].ptr, u[j].base);
      }
    }
  }

  /**
   * A later walk result whose run-start source key was set before
   * overwrites it: the entry ends up holding the later result's target.
   */
  lemma {:induction false} LaterFoldWins(layers: Layers, earlier: ReadRecord, later: ReadRecord, k: Level, j: Level)
    requires k < LEAF && IsRunStart(later.unfolding, k) && IsNextLevel(later.unfolding, k, j)
    ensures var u := later.unfolding;
      var after := Fold(Fold(layers, earlier), later);
      u[k].base in after[k] && u[k].ptr in after[k][u[k].base] && after[k][u[k].base][u[k].ptr] == u[j].base
  {
    var u := later.unfolding;
    var mid := Fold(layers, earlier);
    FoldEffect(mid, later);
    assert Fold(mid, later)[k] == Put(mid[k], u[k].base, u[k].ptr, u[j].base);
  }

  /**
   * Two pages that share the same pgd … pmd entries and the same leaf
   * table but different leaf entries share one directory chain: the second
   * fold adds nothing at levels 0-3, and the leaf table holds one edge per
   * page, each to its own frame.
   */
  lemma {:induction false} SharedChainTwoLeaves(layers: Layers, r1: ReadRecord, r2: ReadRecord)
    requires forall k: Level :: k < LEAF ==> r1.unfolding[k] == r2.unfolding[k]
    requires r1.unfolding[LEAF].base == r2.unfolding[LEAF].base
    requires r1.unfolding[LEAF].ptr != r2.unfolding[LEAF].ptr
    ensures var both := Fold(Fold(layers, r1), r2);
      var leafBase := r1.unfolding[LEAF].base;
      && (forall k: Level :: k < LEAF ==> both[k] == Fold(layers, r1)[k])
      && leafBase in both[LEAF]
      && r1.unfolding[LEAF].ptr in both[LEAF][leafBase] && both[LEAF][leafBase][r1.unfolding[LEAF].ptr] == r1.physAddr
      && r2.unfolding[LEAF].ptr in both[LEAF][leafBase] && both[LEAF][leafBase][r2.unfolding[LEAF].ptr] == r2.physAddr
  {
    var once := Fold(layers, r1);
    FoldEffect(layers, r1);
    FoldEffect(once, r2);
    forall k: Level | k < LEAF
      ensures Fold(once, r2)[k] == once[k]
    {
      SharedLevelUnchanged(layers, r1, r2, k);
    }
  }

  /** One directory level of the shared chain: the second fold rewrites the edge the first one wrote. */
  lemma {:induction false} SharedLevelUnchanged(layers: Layers, r1: ReadRecord, r2: ReadRecord, k: Level)
    requires forall k: Level :: k < LEAF ==> r1.unfolding[k] == r2.unfolding[k]
    requires r1.unfolding[LEAF].base == r2.unfolding[LEAF].base
    requires k < LEAF
    ensures Fold(Fold(layers, r1), r2)[k] == Fold(layers, r1)[k]
  {
    var u1, u2 := r1.unfolding, r2.unfolding;
    var once := Fold(layers, r1);
    var both := Fold(once, r2);
    FoldEffect(layers, r1);
    FoldEffect(once, r2);
    if IsRunStart(u2, k) {
      var j := ScanEnd(u2, k, k, LEAF);
      NextLevelExists(u2, k);
      assert IsRunStart(u1, k);
      assert IsNextLevel(u1, k, j);
      assert u1[j].base == u2[j].base;
      assert once[k] == Put(layers[k], u1[k].base, u1[k].ptr, u1[j].base);
      assert both[k] == Put(once[k], u2[k].base, u2[k].ptr, u2[j].base);
      PutTwice(layers[k], u1[k].base, u1[k].ptr, u1[j].base);
    } else {
      assert !Written(u2, k);
    }
  }

  // The fold as written, against the corrected fold.

  /** With distinct pmd and pte entry pointers the two scans stop at the same level. */
  lemma ScanLimitIrrelevant(u: Unfolding, i: Level)
    requires i < LEAF && u[3].ptr != u[4].ptr
    ensures ScanEnd(u, i, i, LEVELS) == ScanEnd(u, i, i, LEAF)
  {
  }

  /**
   * When the pmd and pte entry pointers differ, the loop as written never
   * reads past the array and produces the same layers as the corrected fold.
   */
  lemma {:induction false} AsWrittenAgreesWhenLeafDistinct(layers: Layers, r: ReadRecord, i: Level)
    requires r.unfolding[3].ptr != r.unfolding[4].ptr
    ensures FoldFromAsWritten(layers, r, i) == Success(FoldFrom(layers, r, i))
    decreases LEVELS - i
  {
    var u := r.unfolding;
    if i + 1 < LEVELS {
      ScanLimitIrrelevant(u, i);
      var j := ScanEnd(u, i, i, LEAF);
      AsWrittenAgreesWhenLeafDistinct(Assign(layers, i, u[i].base, u[i].ptr, u[j].base), r, j);
    }
  }

  /**
   * When the pmd and pte entry pointers are equal, the scan from the run
   * holding level 3 runs to level 5 and the loop as written reads
   * `unfolding[5]`; no leaf edge is written.
   */
  lemma {:induction false} AsWrittenOverrunsWhenLeafFolded(layers: Layers, r: ReadRecord, i: Level)
    requires i <= 3 && r.unfolding[3].ptr == r.unfolding[4].ptr
    ensures FoldFromAsWritten(layers, r, i).Failure?
    decreases LEVELS - i
  {
    var u := r.unfolding;
    var j := ScanEnd(u, i, i, LEVELS);
    if j < LEVELS {
      assert j <= 3;
      AsWrittenOverrunsWhenLeafFolded(Assign(layers, i, u[i].base, u[i].ptr, u[j].base), r, j);
    }
  }

  /** The fold as written fails exactly when the pmd and pte entry pointers are equal. */
  lemma {:induction false} AsWrittenFailsIff(layers: Layers, r: ReadRecord)
    ensures FoldAsWritten(layers, r).Failure? <==> r.unfolding[3].ptr == r.unfolding[4].ptr
    ensures r.unfolding[3].ptr != r.unfolding[4].ptr ==> FoldAsWritten(layers, r) == Success(Fold(layers, r))
  {
    if r.unfolding[3].ptr == r.unfolding[4].ptr {
      AsWrittenOverrunsWhenLeafFolded(layers, r, 0);
    } else {
      AsWrittenAgreesWhenLeafDistinct(layers, r, 0);
    }
  }

  /**
   * A resolved walk whose pmd entry pointer equals its pte entry pointer:
   * the loop as written overruns `unfolding`, while the corrected fold
   * still writes the leaf edge to the physical address.
   */
  lemma LeafFoldedCounterexample()
    ensures var e := UnfoldingEntry(0x1000, 0x2000);
      var r := ReadRecord(1, 0, [UnfoldingEntry(0x10, 0x18), UnfoldingEntry(0x20, 0x28), UnfoldingEntry(0x30, 0x38), e, e], 0x5000);
      && FoldAsWritten(EMPTY_LAYERS, r) == Failure(UnfoldingOutOfBounds(3))
      && Fold(EMPTY_LAYERS, r)[LEAF][0x1000][0x2000] == 0x5000
  {
  }

  /** pm_parser.cpp:58-63: the scan that stretches a run of equal `ptr` as far as it goes. */
  method ScanRun(u: Unfolding, start: Level) returns (j: nat)
    ensures j == ScanEnd(u, start, start, LEVELS)
  {
    j := start;
    while j < LEVELS
      invariant start <= j <= LEVELS
      invariant forall m :: start <= m < j ==> u[m].ptr == u[start].ptr
      decreases LEVELS - j
    {
      if u[start].ptr != u[j].ptr {
        break;
      }
      j := j + 1;
    }
  }

  /**
   * The fold loop of pm_parser.cpp:56-69 with its two nested loops, the scan
   * bounded by `PAGE_TABLE_LEVELS` exactly as written there.
   */
  method FoldLoop(layers: Layers, r: ReadRecord) returns (res: Result<Layers, FoldError>)
    ensures res == FoldAsWritten(layers, r)
  {
    var u := r.unfolding;
    var current := layers;
    res := Success(layers);
    var i: nat := 0;
    while i < LEVELS
      invariant i <= LEVELS
      invariant i < LEVELS ==> FoldFromAsWritten(current, r, i) == FoldAsWritten(layers, r)
      invariant i == LEVELS ==> res == FoldAsWritten(layers, r)
      decreases LEVELS - i
    {
      if i + 1 < LEVELS {
        var j := ScanRun(u, i);
        if j < LEVELS {
          current := Assign(current, i, u[i].base, u[i].ptr, u[j].base);
        } else {
          res := Failure(UnfoldingOutOfBounds(i));
        }
        i := j;
      } else {
        current := Assign(current, i, u[i].base, u[i].ptr, r.physAddr);
        res := Success(current);
        break;
      }
    }
  }
}

=== FILE: hex.dfy ===
/**
 * Hexadecimal text as the driver reads it (`std::stoull(…, 0, 16)`) and
 * writes it (`std::hex << std::setw(16) << std::setfill('0')`).
 */
module Hex {
  import opened Wrappers
  import opened Records

  /** The digits `std::hex` prints. */
  predicate IsLowerHexDigit(c: char) {
    ('0' <= c <= '9') || ('a' <= c <= 'f')
  }

  /** The digits `std::stoull` accepts in base 16. */
  predicate IsHexDigit(c: char) {
    IsLowerHexDigit(c) || ('A' <= c <= 'F')
  }

  function DigitValue(c: char): (d: nat)
    requires IsHexDigit(c)
    ensures d < 16
  {
    if '0' <= c <= '9' then c as int - '0' as int
    else if 'a' <= c <= 'f' then c as int - 'a' as int + 10
    else c as int - 'A' as int + 10
  }

  /** The lower-case digit `std::hex` prints for `d`. */
  function DigitChar(d: nat): (c: char)
    requires d < 16
    ensures IsLowerHexDigit(c) && DigitValue(c) == d
  {
    if d < 10 then ('0' as int + d) as char else ('a' as int + d - 10) as char
  }

  function Pow16(w: nat): (p: nat)
    ensures p >= 1
  {
    if w == 0 then 1 else 16 * Pow16(w - 1)
  }

  /** The number a string of hex digits denotes, most significant digit first. */
  function HexValue(s: string): nat
    requires forall i :: 0 <= i < |s| ==> IsHexDigit(s[i])
  {
    if s == [] then 0 else 16 * HexValue(s[..|s| - 1]) + DigitValue(s[|s| - 1])
  }

  /** `n` printed in lower-case hex, left-padded with '0' to `w` digits. */
  function HexPad(n: nat, w: nat): (s: string)
    requires n < Pow16(w)
    ensures |s| == w
    ensures forall i :: 0 <= i < |s| ==> IsLowerHexDigit(s[i])
  {
    if w == 0 then "" else HexPad(n / 16, w - 1) + [DigitChar(n % 16)]
  }

  /** Pow16(16) is 2^64, so every u64 fits in 16 hex digits. */
  lemma {:induction false} Pow16Of16()
    ensures Pow16(16) == U64_LIMIT
  {
    assert Pow16(4) == 0x1_0000;
    assert Pow16(8) == 0x1_0000_0000 by {
      PowAdd(4, 4);
    }
    PowAdd(8, 8);
  }

  lemma {:induction false} PowAdd(a: nat, b: nat)
    ensures Pow16(a + b) == Pow16(a) * Pow16(b)
  {
    if a > 0 {
      PowAdd(a - 1, b);
    }
  }

  /** A u64 address as every field of the graph description prints it. */
  function Hex16(n: u64): (s: string)
    ensures |s| == 16
    ensures forall i :: 0 <= i < |s| ==> IsLowerHexDigit(s[i])
    ensures HexValue(s) == n
  {
    Pow16Of16();
    HexRoundTrip(n, 16);
    HexPad(n, 16)
  }

  /** Reading back a padded hex rendering gives the number that was printed. */
  lemma {:induction false} HexRoundTrip(n: nat, w: nat)
    requires n < Pow16(w)
    ensures HexValue(HexPad(n, w)) == n
  {
    if w > 0 {
      var s := HexPad(n, w);
      HexRoundTrip(n / 16, w - 1);
      assert s[..|s| - 1] == HexPad(n / 16, w - 1);
    }
  }

  /** Length of the longest prefix of `s` made of hex digits. */
  function HexPrefixLength(s: string): (k: nat)
    ensures k <= |s|
    ensures forall i :: 0 <= i < k ==> IsHexDigit(s[i])
    ensures k == |s| || !IsHexDigit(s[k])
  {
    if s == [] || !IsHexDigit(s[0]) then 0 else 1 + HexPrefixLength(s[1..])
  }

  /**
   * `std::stoull(s, 0, 16)` on a string that starts with its digits: the
   * value of the leading hex digits; no digit throws `invalid_argument` and
   * a value beyond 64 bits throws `out_of_range`, both modelled as `None`.
   */
  function ParseHexPrefix(s: string): (r: Option<u64>)
    ensures r.Some? <==> 0 < HexPrefixLength(s) && HexValue(s[..HexPrefixLength(s)]) < U64_LIMIT
    ensures r.Some? ==> r.value == HexValue(s[..HexPrefixLength(s)])
  {
    var k := HexPrefixLength(s);
    if k == 0 then None
    else
      var v := HexValue(s[..k]);
      if v < U64_LIMIT then Some(v) else None
  }

  /** A padded hex number followed by a non-digit parses back to the number. */
  lemma {:induction false} ParseHexPrefixOfPadded(n: u64, w: nat, rest: string)
    requires 0 < w && n < Pow16(w)
    requires rest == [] || !IsHexDigit(rest[0])
    ensures ParseHexPrefix(HexPad(n, w) + rest) == Some(n)
  {
    var s := HexPad(n, w) + rest;
    PrefixLengthOfDigits(HexPad(n, w), rest);
    assert s[..HexPrefixLength(s)] == HexPad(n, w);
    HexRoundTrip(n, w);
  }

  lemma {:induction false} PrefixLengthOfDigits(d: string, rest: string)
    requires forall i :: 0 <= i < |d| ==> IsHexDigit(d[i])
    requires rest == [] || !IsHexDigit(rest[0])
    ensures HexPrefixLength(d + rest) == |d|
  {
    if d != [] {
      assert (d + rest)[1..] == d[1..] + rest;
      PrefixLengthOfDigits(d[1..], rest);
    } else {
      assert d + rest == rest;
    }
  }
}

=== FILE: ordered.dfy ===
/**
 * The iteration order of `std::map`: keys visited once each, in ascending
 * order.
 */
module Ordered {
  import opened Records

  predicate Increasing(s: seq<u64>) {
    forall i, j :: 0 <= i < j < |s| ==> s[i] < s[j]
  }

  /** The set of elements of a sequence. */
  function Elements<T>(s: seq<T>): set<T> {
    set x | x in s
  }

  predicate NoDuplicates<T(==)>(s: seq<T>) {
    forall i, j :: 0 <= i < j < |s| ==> s[i] != s[j]
  }

  /** `m` is the smallest element of `s`. */
  predicate IsLeast(m: u64, s: set<u64>) {
    m in s && forall x :: x in s ==> m <= x
  }

  lemma {:induction false} LeastExists(s: set<u64>)
    requires s != {}
    ensures exists m :: IsLeast(m, s)
  {
    var y :| y in s;
    var rest := s - {y};
    if rest == {} {
      forall x | x in s
        ensures y <= x
      {
        assert x == y || x in rest;
      }
      assert IsLeast(y, s);
    } else {
      LeastExists(rest);
      var m :| IsLeast(m, rest);
      var k := if y < m then y else m;
      forall x | x in s
        ensures k <= x
      {
        assert x == y || x in rest;
      }
      assert IsLeast(k, s);
    }
  }

  /** The smallest key: the first one a `std::map` iteration visits. */
  function Min(s: set<u64>): (m: u64)
    requires s != {}
    ensures m in s
    ensures forall x :: x in s ==> m <= x
  {
    LeastExists(s);
    var m :| IsLeast(m, s);
    m
  }

  /** The keys of a map in the order a range-for over `std::map` visits them. */
  function SortedKeys(s: set<u64>): (r: seq<u64>)
    ensures Increasing(r)
    ensures |r| == |s|
    ensures forall x :: x in r <==> x in s
    decreases |s|
  {
    if s == {} then []
    else
      var m := Min(s);
      var rest := SortedKeys(s - {m});
      [m] + rest
  }

  /** An increasing sequence is determined by its elements. */
  lemma {:induction false} IncreasingUnique(a: seq<u64>, b: seq<u64>)
    requires Increasing(a) && Increasing(b)
    requires forall x :: x in a <==> x in b
    ensures a == b
  {
    SameElementsSameLength(a, b);
    if |a| > 0 {
      assert a[0] == b[0] by {
        assert a[0] in b && b[0] in a;
      }
      forall x
        ensures x in a[1..] <==> x in b[1..]
      {
        if x in a[1..] {
          assert x in b && x != b[0];
        }
        if x in b[1..] {
          assert x in a && x != a[0];
        }
      }
      IncreasingUnique(a[1..], b[1..]);
      assert a == [a[0]] + a[1..] && b == [b[0]] + b[1..];
    }
  }

  lemma SameElementsSameLength(a: seq<u64>, b: seq<u64>)
    requires Increasing(a) && Increasing(b)
    requires forall x :: x in a <==> x in b
    ensures |a| == |b|
  {
    IncreasingHasNoDuplicates(a);
    IncreasingHasNoDuplicates(b);
    DistinctCardinality(a);
    DistinctCardinality(b);
    assert Elements(a) == Elements(b);
  }

  lemma IncreasingHasNoDuplicates(s: seq<u64>)
    requires Increasing(s)
    ensures NoDuplicates(s)
  {
  }

  /** A sequence without repetitions has as many elements as the set of its elements. */
  lemma {:induction false} DistinctCardinality<T>(s: seq<T>)
    requires NoDuplicates(s)
    ensures |Elements(s)| == |s|
  {
    if s != [] {
      var rest := s[1..];
      DistinctCardinality(rest);
      assert s[0] !in Elements(rest);
      assert Elements(s) == {s[0]} + Elements(rest);
    }
  }

  /** Joining two repetition-free sequences with no common element gives a repetition-free sequence. */
  lemma NoDuplicatesAppend<T>(a: seq<T>, b: seq<T>)
    requires NoDuplicates(a) && NoDuplicates(b)
    requires forall x :: x in a ==> x !in b
    ensures NoDuplicates(a + b)
  {
    forall i, j | 0 <= i < j < |a + b|
      ensures (a + b)[i] != (a + b)[j]
    {
      if j >= |a| && i < |a| {
        assert (a + b)[i] in a && (a + b)[j] in b;
      }
    }
  }
}

=== FILE: records.dfy ===
/**
 * The fixed-size records exchanged between the user-space driver and the
 * kernel module (`struct pt_module_write`, `struct unfolding_entry`,
 * `struct pt_module_read`), with the C integer widths made explicit.
 */
module Records {

  /** `PAGE_TABLE_LEVELS`: pgd, p4d, pud, pmd, pte. */
  const LEVELS: nat := 5

  /** The leaf (pte) level. */
  const LEAF: nat := 4

  const U64_LIMIT: int := 0x1_0000_0000_0000_0000

  /** `uint64_t` and `phys_addr_t` on a 64-bit kernel. */
  type u64 = x: int | 0 <= x < U64_LIMIT

  /** `pid_t`. */
  type i32 = x: int | -0x8000_0000 <= x < 0x8000_0000

  /** Index of one of the five translation levels, 0 = pgd … 4 = pte. */
  type Level = k: nat | k < LEVELS

  /** `sizeof(struct pt_module_write)` on x86-64: a 4-byte pid, 4 bytes of padding, an 8-byte address. */
  const WRITE_SIZE: nat := 16

  /** `sizeof(struct pt_module_read)` on x86-64: 16 bytes of header, 5 × 16 bytes of levels, 8 bytes of phys_addr. */
  const READ_SIZE: nat := 104

  /** `EFAULT` from the kernel's errno table. */
  const EFAULT: int := 14

  /** The pending translation request: which process, which virtual address. */
  datatype WriteRequest = WriteRequest(pid: i32, vaddr: u64)

  /** One level of a walk: the table's base address and the address of the consulted entry. */
  datatype UnfoldingEntry = UnfoldingEntry(base: u64, ptr: u64)

  const ZERO_ENTRY: UnfoldingEntry := UnfoldingEntry(0, 0)

  /** `unfolding[PAGE_TABLE_LEVELS]`: always exactly five levels. */
  type Unfolding = s: seq<UnfoldingEntry> | |s| == LEVELS
    witness [ZERO_ENTRY, ZERO_ENTRY, ZERO_ENTRY, ZERO_ENTRY, ZERO_ENTRY]

  const ZERO_UNFOLDING: Unfolding := [ZERO_ENTRY, ZERO_ENTRY, ZERO_ENTRY, ZERO_ENTRY, ZERO_ENTRY]

  /** The translation result returned to user space. */
  datatype ReadRecord = ReadRecord(pid: i32, vaddr: u64, unfolding: Unfolding, physAddr: u64)

  /** A value-initialised record (`struct pt_module_read pt_read = {}`). */
  const EMPTY_RECORD: ReadRecord := ReadRecord(0, 0, ZERO_UNFOLDING, 0)
}

=== FILE: regions.dfy ===
/**
 * One line of `/proc/<pid>/maps` as the driver reads it, and the sweep of
 * page addresses over the range it names.
 */
module Regions {
  import opened Wrappers
  import opened Records
  import opened Hex

  /** The distance between swept addresses (`0x1000u`). */
  const PAGE_STEP: nat := 0x1000

  /** A mapped range and its label (a file path, a `[tag]`, or ""). */
  datatype Region = Region(begin: u64, end: u64, memLabel: string)

  /** `std::string::find(c)`: the first position of `c`, or `None` for `npos`. */
  function Find(s: string, c: char): (r: Option<nat>)
    ensures r.Some? ==> r.value < |s| && s[r.value] == c && c !in s[..r.value]
    ensures r.None? ==> c !in s
  {
    if s == [] then None
    else if s[0] == c then Some(0)
    else match Find(s[1..], c)
      case None => None
      case Some(i) => Some(i + 1)
  }

  /** `line.substr(line.find('-') + 1)`: with no '-', `npos + 1` wraps to 0 and it is the whole line. */
  function EndField(line: string): string {
    match Find(line, '-')
    case Some(d) => line[d + 1..]
    case None => line
  }

  /** The suffix from the first '/', else from the first '[', else "". */
  function LabelField(line: string): string {
    var labelPos := match Find(line, '/')
      case Some(p) => Some(p)
      case None => Find(line, '[');
    match labelPos
    case Some(p) => line[p..]
    case None => ""
  }

  /**
   * The parse of pm_parser.cpp:37-44: `begin` is the hex number the line starts
   * with, `end` the hex number of `EndField`, and the label `LabelField`.
   * A number `std::stoull` rejects is `None`.
   */
  function ParseLine(line: string): Option<Region> {
    var begin :- ParseHexPrefix(line);
    var end :- ParseHexPrefix(EndField(line));
    Some(Region(begin, end, LabelField(line)))
  }

  /** A label `ParseLine` gives back unchanged: empty, a path, or a bracketed tag without '/'. */
  predicate RecoverableLabel(memLabel: string) {
    memLabel == [] || memLabel[0] == '/' || (memLabel[0] == '[' && '/' !in memLabel)
  }

  /** The text between the end address and the label: permissions, offset, device, inode. */
  predicate PlainMiddle(middle: string) {
    && middle != []
    && !IsHexDigit(middle[0])
    && '/' !in middle
    && '[' !in middle
  }

  /** A maps line as the kernel prints it: both addresses in hex of at least one digit. */
  function FormatLine(begin: u64, beginDigits: nat, end: u64, endDigits: nat, middle: string, memLabel: string): string
    requires begin < Pow16(beginDigits) && end < Pow16(endDigits)
  {
    HexPad(begin, beginDigits) + "-" + HexPad(end, endDigits) + middle + memLabel
  }

  lemma {:induction false} FindInDigits(d: string, c: char, rest: string)
    requires forall i :: 0 <= i < |d| ==> IsHexDigit(d[i])
    requires !IsHexDigit(c)
    ensures Find(d + rest, c) == (match Find(rest, c) case Some(i) => Some(|d| + i) case None => None)
  {
    if d != [] {
      assert (d + rest)[1..] == d[1..] + rest;
      FindInDigits(d[1..], c, rest);
    } else {
      assert d + rest == rest;
    }
  }

  lemma {:induction false} FindAbsent(s: string, t: string, c: char)
    requires c !in s
    ensures Find(s + t, c) == (match Find(t, c) case Some(i) => Some(|s| + i) case None => None)
  {
    if s != [] {
      assert (s + t)[1..] == s[1..] + t;
      FindAbsent(s[1..], t, c);
    } else {
      assert s + t == t;
    }
  }

  /**
   * Parsing a printed maps line gives back its two addresses and its
   * label, as long as the label is one `ParseLine` can recover.
   */
  lemma {:induction false} ParseFormattedLine(begin: u64, beginDigits: nat, end: u64, endDigits: nat, middle: string, memLabel: string)
    requires 0 < beginDigits && begin < Pow16(beginDigits)
    requires 0 < endDigits && end < Pow16(endDigits)
    requires PlainMiddle(middle) && RecoverableLabel(memLabel)
    ensures ParseLine(FormatLine(begin, beginDigits, end, endDigits, middle, memLabel)) == Some(Region(begin, end, memLabel))
  {
    var b := HexPad(begin, beginDigits);
    var e := HexPad(end, endDigits);
    var line := FormatLine(begin, beginDigits, end, endDigits, middle, memLabel);
    BeginOfFormatted(b, begin, beginDigits, "-" + e + middle + memLabel);
    EndOfFormatted(b, e, end, endDigits, middle + memLabel);
    NoLabelStartInFront(b, e, middle);
    LabelFieldOfFormatted(b + "-" + e + middle, memLabel);
    Regroup(b, "-", e, middle, memLabel);
  }

  lemma Regroup(a: string, b: string, c: string, d: string, e: string)
    ensures a + b + c + d + e == a + (b + c + d + e)
    ensures a + (b + c + d + e) == a + (b + c + (d + e))
  {
  }

  lemma BeginOfFormatted(b: string, begin: u64, digits: nat, tail: string)
    requires 0 < digits && begin < Pow16(digits) && b == HexPad(begin, digits)
    requires tail != [] && tail[0] == '-'
    ensures ParseHexPrefix(b + tail) == Some(begin)
  {
    ParseHexPrefixOfPadded(begin, digits, tail);
  }

  lemma EndOfFormatted(b: string, e: string, end: u64, digits: nat, rest: string)
    requires forall i :: 0 <= i < |b| ==> IsHexDigit(b[i])
    requires 0 < digits && end < Pow16(digits) && e == HexPad(end, digits)
    requires rest == [] || !IsHexDigit(rest[0])
    ensures ParseHexPrefix(EndField(b + ("-" + e + rest))) == Some(end)
  {
    var tail := "-" + e + rest;
    EndFieldAfterDigits(b, tail);
    DropSeparator(e, rest);
    ParseHexPrefixOfPadded(end, digits, rest);
  }

  lemma DropSeparator(e: string, rest: string)
    ensures ("-" + e + rest)[1..] == e + rest
  {
  }

  lemma NoLabelStartInFront(b: string, e: string, middle: string)
    requires forall i :: 0 <= i < |b| ==> IsHexDigit(b[i])
    requires forall i :: 0 <= i < |e| ==> IsHexDigit(e[i])
    requires '/' !in middle && '[' !in middle
    ensures '/' !in b + "-" + e + middle && '[' !in b + "-" + e + middle
  {
    assert '/' !in b && '[' !in b;
    assert '/' !in e && '[' !in e;
  }

  lemma EndFieldAfterDigits(b: string, tail: string)
    requires forall i :: 0 <= i < |b| ==> IsHexDigit(b[i])
    requires tail != [] && tail[0] == '-'
    ensures EndField(b + tail) == tail[1..]
  {
    FindInDigits(b, '-', tail);
    assert (b + tail)[|b| + 1..] == tail[1..];
  }

  lemma LabelFieldOfFormatted(front: string, memLabel: string)
    requires '/' !in front && '[' !in front
    requires RecoverableLabel(memLabel)
    ensures LabelField(front + memLabel) == memLabel
  {
    FindAbsent(front, memLabel, '/');
    FindAbsent(front, memLabel, '[');
    if memLabel == [] {
      assert Find(memLabel, '/') == None;
      assert Find(memLabel, '[') == None;
    } else if memLabel[0] == '/' {
      assert Find(memLabel, '/') == Some(0);
      assert (front + memLabel)[|front|..] == memLabel;
    } else {
      assert Find(memLabel, '/') == None;
      assert Find(memLabel, '[') == Some(0);
      assert (front + memLabel)[|front|..] == memLabel;
    }
  }

  /**
   * The sweep of pm_parser.cpp:46: `begin`, `begin + 0x1000`, … while below `end`.
   * `None` when the 64-bit increment wraps past the top of the address
   * space, where the loop would never end.
   */
  function PageSweep(begin: u64, end: u64): (r: Option<seq<u64>>)
    ensures r.Some? ==> forall i :: 0 <= i < |r.value| ==> r.value[i] == begin + i * PAGE_STEP && r.value[i] < end
    ensures r.Some? ==> |r.value| * PAGE_STEP >= end - begin
    ensures r.None? ==> begin < end && U64_LIMIT - PAGE_STEP < end
    decreases end - begin
  {
    if begin >= end then Some([])
    else if begin + PAGE_STEP >= U64_LIMIT then None
    else match PageSweep(begin + PAGE_STEP, end)
      case None => None
      case Some(rest) => Some([begin] + rest)
  }

  /** The sweep visits exactly the addresses in [begin, end) that are a whole number of pages above `begin`. */
  lemma {:induction false} PageSweepVisits(begin: u64, end: u64, a: int)
    requires PageSweep(begin, end).Some?
    ensures a in PageSweep(begin, end).value <==> begin <= a < end && (a - begin) % PAGE_STEP == 0
  {
    var s := PageSweep(begin, end).value;
    if begin <= a < end && (a - begin) % PAGE_STEP == 0 {
      var i := (a - begin) / PAGE_STEP;
      assert a == begin + i * PAGE_STEP;
      assert i < |s|;
      assert s[i] == a;
    }
  }

  /** Below the last page of the address space, the sweep always ends. */
  lemma {:induction false} PageSweepTerminates(begin: u64, end: u64)
    requires end <= U64_LIMIT - PAGE_STEP
    ensures PageSweep(begin, end).Some?
  {
  }

  /**
   * The sweep gives up exactly when the last address the loop visits lies
   * in the top page, so that stepping past it wraps the 64-bit counter.
   */
  lemma {:induction false} PageSweepNoneIff(begin: u64, end: u64)
    ensures PageSweep(begin, end).None? <==>
      begin < end && begin + ((end - begin - 1) / PAGE_STEP) * PAGE_STEP + PAGE_STEP >= U64_LIMIT
    decreases end - begin
  {
    if begin < end && begin + PAGE_STEP < U64_LIMIT {
      PageSweepNoneIff(begin + PAGE_STEP, end);
      if begin + PAGE_STEP < end {
        assert (end - begin - 1) / PAGE_STEP == (end - (begin + PAGE_STEP) - 1) / PAGE_STEP + 1;
      }
    }
  }

  /** A page-aligned end, as every maps line has, never makes the sweep wrap. */
  lemma {:induction false} AlignedSweepTerminates(begin: u64, end: u64)
    requires end % PAGE_STEP == 0
    ensures PageSweep(begin, end).Some?
  {
    assert U64_LIMIT % PAGE_STEP == 0;
    assert end <= U64_LIMIT - PAGE_STEP;
    PageSweepTerminates(begin, end);
  }
}

=== FILE: walk.dfy ===
/**
 * The five-level translation walk of `procfile_read`: pgd → p4d → pud →
 * pmd → pte, stopping at the first entry that is none or bad and leaving
 * everything deeper at 0.
 *
 * The kernel's page-table accessors are not visible, so they are an
 * uninterpreted oracle: a `PageTables` value holds arbitrary total
 * functions standing for them.
 */
module Walk {
  import opened Records

  /**
   * The page-table accessors of one address space.
   *  - `offset(k, parent, vaddr)`: `pgd_offset(mm, vaddr)` for k = 0 (parent is
   *    `mm->pgd`), else `p4d_offset`/`pud_offset`/`pmd_offset`/`pte_offset_kernel`
   *    of the previous level's entry pointer;
   *  - `none(k, ptr)`, `bad(k, ptr)`: `*_none(*ptr)`, `*_bad(*ptr)`;
   *  - `nextBase(k, ptr)`: the next level's table as read from the entry at
   *    level k (`pgd_val`, `p4d_pgtable`, `pud_pgtable`, `pmd_page_vaddr`);
   *  - `leafVal(ptr)`: `pte_val(*ptr)`.
   */
  datatype PageTables = PageTables(
    offset: (Level, u64, u64) -> u64,
    none: (Level, u64) -> bool,
    bad: (Level, u64) -> bool,
    nextBase: (Level, u64) -> u64,
    leafVal: u64 -> u64)

  /** A memory descriptor: `mm->pgd` and the tables reachable from it. */
  datatype Mm = Mm(pgd: u64, tables: PageTables)

  /** The part of `pt_module_read` the walk fills in. */
  datatype Walked = Walked(unfolding: Unfolding, physAddr: u64)

  /** `*_none(*ptr) || *_bad(*ptr)` at a directory level: the walk stops here. */
  predicate Fails(t: PageTables, k: Level, ptr: u64) {
    t.none(k, ptr) || t.bad(k, ptr)
  }

  /**
   * The address walk of page_table_module.c:61-93, written as the nested descent the module
   * performs.
   */
  function WalkTables(mm: Mm, vaddr: u64): Walked
  {
    var t := mm.tables;
    var pgdBase := mm.pgd;
    var pgd := t.offset(0, pgdBase, vaddr);
    var e0 := UnfoldingEntry(pgdBase, pgd);
    if Fails(t, 0, pgd) then
      Walked([e0, ZERO_ENTRY, ZERO_ENTRY, ZERO_ENTRY, ZERO_ENTRY], 0)
    else
      var p4dBase := t.nextBase(0, pgd);
      var p4d := t.offset(1, pgd, vaddr);
      var e1 := UnfoldingEntry(p4dBase, p4d);
      if Fails(t, 1, p4d) then
        Walked([e0, e1, ZERO_ENTRY, ZERO_ENTRY, ZERO_ENTRY], 0)
      else
        var pudBase := t.nextBase(1, p4d);
        var pud := t.offset(2, p4d, vaddr);
        var e2 := UnfoldingEntry(pudBase, pud);
        if Fails(t, 2, pud) then
          Walked([e0, e1, e2, ZERO_ENTRY, ZERO_ENTRY], 0)
        else
          var pmdBase := t.nextBase(2, pud);
          var pmd := t.offset(3, pud, vaddr);
          var e3 := UnfoldingEntry(pmdBase, pmd);
          if Fails(t, 3, pmd) then
            Walked([e0, e1, e2, e3, ZERO_ENTRY], 0)
          else
            var pteBase := t.nextBase(3, pmd);
            var pte := t.offset(4, pmd, vaddr);
            var e4 := UnfoldingEntry(pteBase, pte);
            if t.none(4, pte) then
              Walked([e0, e1, e2, e3, e4], 0)
            else
              Walked([e0, e1, e2, e3, e4], t.leafVal(pte))
  }

  // The walk described level by level, independently of the nesting above.

  /** The entry pointer consulted at level k: each level indexes into the entry of the one above. */
  function EntryPtr(mm: Mm, vaddr: u64, k: Level): u64 {
    if k == 0 then mm.tables.offset(0, mm.pgd, vaddr)
    else mm.tables.offset(k, EntryPtr(mm, vaddr, k - 1), vaddr)
  }

  /** The table base recorded for level k: `mm->pgd`, then what the entry above points at. */
  function TableBase(mm: Mm, vaddr: u64, k: Level): u64 {
    if k == 0 then mm.pgd else mm.tables.nextBase(k - 1, EntryPtr(mm, vaddr, k - 1))
  }

  /** The check at level k lets the walk go on: not none and not bad; the leaf is checked only with `pte_none`. */
  predicate Passes(mm: Mm, vaddr: u64, k: Level) {
    var ptr := EntryPtr(mm, vaddr, k);
    !mm.tables.none(k, ptr) && (k == LEAF || !mm.tables.bad(k, ptr))
  }

  /** Level k is recorded: every shallower level passed its check (k = 5: all five passed). */
  predicate Reached(mm: Mm, vaddr: u64, k: nat) {
    forall j: Level :: j < k ==> Passes(mm, vaddr, j)
  }

  /** All five checks passed: the address has a present leaf entry. */
  predicate Resolved(mm: Mm, vaddr: u64) {
    Reached(mm, vaddr, 5)
  }

  /** The value a walk records for level k, described level by level. */
  function Expected(mm: Mm, vaddr: u64, k: Level): UnfoldingEntry {
    if Reached(mm, vaddr, k) then UnfoldingEntry(TableBase(mm, vaddr, k), EntryPtr(mm, vaddr, k)) else ZERO_ENTRY
  }

  lemma ReachedStep(mm: Mm, vaddr: u64, k: Level)
    ensures Reached(mm, vaddr, k + 1) <==> Reached(mm, vaddr, k) && Passes(mm, vaddr, k)
  {
  }

  lemma ReachedMonotone(mm: Mm, vaddr: u64, k: nat, j: nat)
    requires k <= j
    ensures Reached(mm, vaddr, j) ==> Reached(mm, vaddr, k)
  {
  }

  /**
   * The nested descent records level k exactly when every shallower check
   * passed, records 0 for every deeper level, and reports a physical
   * address exactly when all five checks passed, as the raw leaf value.
   */
  lemma {:induction false} WalkTablesLevels(mm: Mm, vaddr: u64)
    ensures forall k: Level :: WalkTables(mm, vaddr).unfolding[k] == Expected(mm, vaddr, k)
    ensures WalkTables(mm, vaddr).physAddr == (if Resolved(mm, vaddr) then mm.tables.leafVal(EntryPtr(mm, vaddr, 4)) else 0)
    ensures WalkTables(mm, vaddr).unfolding[0] == UnfoldingEntry(mm.pgd, mm.tables.offset(0, mm.pgd, vaddr))
  {
    ReachedStep(mm, vaddr, 0);
    ReachedStep(mm, vaddr, 1);
    ReachedStep(mm, vaddr, 2);
    ReachedStep(mm, vaddr, 3);
    ReachedStep(mm, vaddr, 4);
    forall k: Level, j: nat | k <= j <= 5
      ensures Reached(mm, vaddr, j) ==> Reached(mm, vaddr, k)
    {
      ReachedMonotone(mm, vaddr, k, j);
    }
  }

  /**
   * The same walk as an ordered loop over the five levels with one
   * present/absent decision per level; it agrees with the nested descent.
   */
  method WalkByLevel(mm: Mm, vaddr: u64) returns (w: Walked)
    ensures w == WalkTables(mm, vaddr)
  {
    var t := mm.tables;
    var entries := ZERO_UNFOLDING;
    var phys: u64 := 0;
    var base := mm.pgd;
    var parent := mm.pgd;
    var resolving := true;
    var k := 0;
    while k < 5 && resolving
      invariant 0 <= k <= 5
      invariant resolving <==> Reached(mm, vaddr, k)
      invariant resolving && k < 5 ==> base == TableBase(mm, vaddr, k)
      invariant resolving && 0 < k < 5 ==> parent == EntryPtr(mm, vaddr, k - 1)
      invariant resolving && k == 0 ==> parent == mm.pgd
      invariant !resolving ==> k > 0
      invariant forall j: Level :: j < k ==> entries[j] == Expected(mm, vaddr, j)
      invariant forall j: Level :: k <= j ==> entries[j] == ZERO_ENTRY
      invariant phys == (if k == 5 && Resolved(mm, vaddr) then t.leafVal(EntryPtr(mm, vaddr, 4)) else 0)
      decreases 5 - k
    {
      var ptr := t.offset(k, parent, vaddr);
      entries := entries[k := UnfoldingEntry(base, ptr)];
      if k < LEAF {
        if Fails(t, k, ptr) {
          resolving := false;
        } else {
          base := t.nextBase(k, ptr);
          parent := ptr;
        }
      } else if t.none(k, ptr) {
        resolving := false;
      } else {
        phys := t.leafVal(ptr);
      }
      ReachedStep(mm, vaddr, k);
      k := k + 1;
    }
    forall j: Level | k <= j
      ensures !Reached(mm, vaddr, j)
    {
      ReachedMonotone(mm, vaddr, k, j);
    }
    ReachedMonotone(mm, vaddr, k, 5);
    w := Walked(entries, phys);
    WalkTablesLevels(mm, vaddr);
  }

  /**
   * Monotonic termination: when level k is the first whose check fails,
   * its own table base and entry pointer are still recorded, every deeper
   * level stays 0 and there is no physical address.
   */
  lemma {:induction false} WalkStopsAtFirstFailure(mm: Mm, vaddr: u64, k: Level)
    requires Reached(mm, vaddr, k) && !Passes(mm, vaddr, k)
    ensures WalkTables(mm, vaddr).unfolding[k] == UnfoldingEntry(TableBase(mm, vaddr, k), EntryPtr(mm, vaddr, k))
    ensures forall j: Level :: k < j ==> WalkTables(mm, vaddr).unfolding[j] == ZERO_ENTRY
    ensures WalkTables(mm, vaddr).physAddr == 0
  {
    WalkTablesLevels(mm, vaddr);
    ReachedStep(mm, vaddr, k);
    forall j: Level | k < j
      ensures !Reached(mm, vaddr, j)
    {
      ReachedMonotone(mm, vaddr, k + 1, j);
    }
    ReachedMonotone(mm, vaddr, k + 1, 5);
  }

  /**
   * A walk reports a physical address only after all five checks passed,
   * and the address is then the raw leaf entry value, unmasked.
   */
  lemma {:induction false} PhysicalAddressNeedsFullWalk(mm: Mm, vaddr: u64)
    requires WalkTables(mm, vaddr).physAddr != 0
    ensures forall k: Level :: Passes(mm, vaddr, k)
    ensures WalkTables(mm, vaddr).physAddr == mm.tables.leafVal(EntryPtr(mm, vaddr, 4))
  {
    WalkTablesLevels(mm, vaddr);
  }

  /**
   * When no accessor the walk calls hands back a NULL entry pointer, a 0
   * entry pointer in the result means the level was never reached, and
   * then no deeper level was either.
   */
  lemma {:induction false} ZeroPointerPropagates(mm: Mm, vaddr: u64)
    requires forall k: Level :: Reached(mm, vaddr, k) ==> EntryPtr(mm, vaddr, k) != 0
    ensures forall i: Level, j: Level :: i < j && WalkTables(mm, vaddr).unfolding[i].ptr == 0 ==>
      WalkTables(mm, vaddr).unfolding[j].ptr == 0
  {
    WalkTablesLevels(mm, vaddr);
    forall i: Level, j: Level | i < j && WalkTables(mm, vaddr).unfolding[i].ptr == 0
      ensures WalkTables(mm, vaddr).unfolding[j].ptr == 0
    {
      ReachedMonotone(mm, vaddr, i, j);
    }
  }
}

=== FILE: wrappers.dfy ===
/** Failure-compatible wrappers used across the model. */
module Wrappers {

  /** An optional value; `None` stands for a NULL pointer, a missing key or a thrown exception. */
  datatype Option<+T> = None | Some(value: T) {

    predicate IsFailure() {
      None?
    }

    function PropagateFailure<U>(): Option<U>
      requires None?
    {
      None
    }

    function Extract(): T
      requires Some?
    {
      value
    }
  }

  /** Either a value or an error describing why there is none. */
  datatype Result<+R, +E> = Success(value: R) | Failure(error: E)
}
